=== FILE: README.md ===
# Transformer layer control logic, modelled in Dafny

This project models the discrete control and bookkeeping of
`transformer_engine/pytorch/transformer.py`, the transformer layer of
Transformer Engine for PyTorch. The numerics are out of scope:
- the matrix products;
- softmax and layernorm;
- the flash kernel;
- the fused bias-dropout-add kernels.

The model covers the decisions the code makes around them:

- **`DotProductAttention` constructor** (`DotProductAttention.Init`):
  - layer-number clamping, and the rule that the query-key layer scaling needs a layer number;
  - the exact split of sizes across tensor-parallel partitions;
  - the norm factors, kept as integer squares;
  - the static gate that decides whether a flash-attention module is built.
- **Per-call dispatch** (`DotProductAttention.Dispatch`): flash or unfused, with or without activation checkpointing.
- **`FlashAttention`**: its checks, and the packed-layout offsets `cu_seqlens` it hands to the kernel.
- **The inference KV cache of `MultiHeadAttention`** (`KvCache`):
  - lazy allocation per layer key;
  - the bounds-checked write at the session's offsets;
  - the prefix read;
  - the fact that token-by-token decoding accumulates every key written so far.
- **`MultiHeadAttention` bookkeeping**:
  - the attention-type check and the head split;
  - the boolean-mask check;
  - the order cache step, then dispatch, then the core-attention call;
  - the element types the dispatcher sees after a cache read.
- **`TransformerLayer`**:
  - constructor validation;
  - which sub-blocks exist;
  - the residual each stage adds back;
  - which bias-dropout-add implementation runs, and where drop-path (stochastic depth) applies;
  - tuple-unpacking agreement between the blocks and the layer;
  - the fact that only the self-attention block sees the inference session.

Tensors are symbolic (`Dataflow.Term`), so routing facts are exact. Failures the Python code raises are `Result` values, with one `Error` constructor per kind of failure:
- assertions, one constructor per assertion;
- `ZeroDivisionError`, from `divide`, from the default head size, and from the softmax scale `1.0 / norm_factor` at both of its sites: the unfused path (transformer.py line 150) and the flash path (line 278);
- unpacking `ValueError`;
- torch's zero-step error in `arange`;
- torch's error for a `view(..., -1)` whose given sizes multiply to zero, where -1 is ambiguous;
- torch's error for a `view` to a shape with a different number of elements, raised when a projection's width does not split into the block's heads.

Parameters stand in for:
- environment variables, as integers read with `int(...)`, where non-zero means on;
- the tensor-parallel group's world size;
- the presence of an RNG tracker;
- the filler for `torch.empty`.

`divide` lives in `utils.py`, and `AttnMaskTypes`, `LayerTypes` and `AttnTypes` live in `constants.py`; those files are not part of this model. `divide` is modelled as exact division, which fails on a zero divisor and on a remainder. The mask and layer-type lists are taken as `("causal", "padding")` and `("encoder", "decoder")`, as the docstrings at transformer.py lines 315, 850 and 857 give them. The attention-type list is taken as `("self", "cross")`, the two values the code itself uses (lines 540, 1005 and 1014).

Two places where the code behaves differently than one might expect; the model follows the code in both:

- **The cache key.** The attention block stores its layer number as the 1-tuple `(layer_number,)`. The guard `self.layer_number is not None` therefore always holds, and layers built without a layer number share one cache entry (`MultiHeadAttention.BlocksWithoutLayerNumberShareCache`).
- **A failed cache write.** The buffers are allocated and stored before the bounds assertions. A call that fails its bounds check therefore leaves a freshly allocated entry behind (`KvCache.Step`), rather than leaving the session untouched.

## Model

| member | source | states |
|---|---|---|
| Common.Divide | transformer_engine/pytorch/transformer.py:356-360 | Splitting a size across partitions succeeds exactly when the divisor is positive and divides it, and the quotient times the divisor gives back the size; a zero divisor is a division error |
| Names.ParseMaskType | transformer_engine/pytorch/transformer.py:951-953 | Exactly the strings "causal" and "padding" are accepted, each mapping to its own mask kind; anything else is rejected with that name |
| Names.ParseLayerType | transformer_engine/pytorch/transformer.py:954 | Exactly "encoder" and "decoder" are accepted; anything else is rejected with that name |
| Names.ParseAttnType | transformer_engine/pytorch/transformer.py:518-520 | Exactly "self" and "cross" are accepted; anything else is rejected with that name |
| FlashAttention.Init | transformer_engine/pytorch/transformer.py:220-228 | Construction succeeds iff the mask is causal and the softmax runs in fp32; the module is causal and keeps the norm factor and dropout it was given |
| FlashAttention.Arange | transformer_engine/pytorch/transformer.py:267-272 | The i-th value is start + i*step and lies below end, and one more step would reach end: exactly the values below end, none missing |
| FlashAttention.ArangeCount | transformer_engine/pytorch/transformer.py:267-272 | A range spanning n whole steps has exactly n values |
| FlashAttention.CuSeqlens | transformer_engine/pytorch/transformer.py:266-272 | The offsets fail only for a zero sequence length; otherwise there are batch+1 of them, the i-th is i*seqlen, they start at 0, end at batch*seqlen and rise by seqlen per sample |
| FlashAttention.CheckInputs | transformer_engine/pytorch/transformer.py:243-253 | The call-time checks pass iff q, k and v are all fp16/bf16, all on the accelerator, and no mask is given; an element-type violation is reported first |
| FlashAttention.ForwardAsWritten | transformer_engine/pytorch/transformer.py:234-282 | As written, the call succeeds iff the checks pass, the query is non-empty, the head size is positive and the batch is non-empty; an empty query fails in the arange, a zero head size in the softmax scale 1 / norm_factor; the key offsets and key maximum length are the query's |
| FlashAttention.AsWrittenKeyOffsetsMismatch | transformer_engine/pytorch/transformer.py:266-277 | A query of length 1 with keys of length 3 (batch 2) is accepted, yet the key offsets it hands over do not describe the packed keys |
| FlashAttention.AsWrittenMisdescribesLongerKeys | transformer_engine/pytorch/transformer.py:266-277 | For every accepted as-written call whose keys share the query's batch but are longer than the query, the key offsets end short of the packed keys |
| FlashAttention.Forward | transformer_engine/pytorch/transformer.py:234-282 | With key offsets taken from the key length, the call succeeds iff the checks pass, query and keys are non-empty, the head size is positive and the batch is non-empty, and its offsets always describe the packed q/k/v; dropout applies only in training; norm factor, causality and the (seq, batch, heads*headDim) output shape are carried through |
| FlashAttention.ForwardAgreesWhenLengthsMatch | transformer_engine/pytorch/transformer.py:266-277 | When query and key have one length and batch, the corrected call equals the one as written |
| DotProductAttention.UnfusedInit | transformer_engine/pytorch/transformer.py:79-103 | The unfused module is built iff the mask kind is known; its softmax receives the layer number exactly when query-key layer scaling is on |
| DotProductAttention.Build | transformer_engine/pytorch/transformer.py:344-392 | The layer number is clamped to at least 1 and its absence switches scaling off; scaling forces an fp32 softmax; the flash module exists iff the toggle is set, the softmax is fp32, the mask is causal and scaling is off; flash norm factor squared is the head size, the unfused one is head size times layer number squared under scaling |
| DotProductAttention.Init | transformer_engine/pytorch/transformer.py:353-360 | Construction succeeds iff the partition count is positive and divides the projection size, the head count is positive and the mask is known; the per-partition size times the partition count is the projection size, and the head size equals kv_channels |
| DotProductAttention.Dispatch | transformer_engine/pytorch/transformer.py:450-474 | The flash variant runs iff the static gate chose it and the flash call-time type and mask checks would pass; checkpointing follows the flag; only the unfused variant receives the mask |
| DotProductAttention.UnfusedForward | transformer_engine/pytorch/transformer.py:110-195 | The unfused pass succeeds iff query, keys and values have non-empty extents and a head per partition and the norm factor is non-zero; an empty query or key extent is an ambiguous reshape, raised before a zero norm factor's division error |
| DotProductAttention.Execute | transformer_engine/pytorch/transformer.py:450-474 | An unfused choice succeeds iff the unfused pass does, and hands the mask on; a flash choice succeeds iff the tensors are on the accelerator, the query and batch are non-empty and the head size is positive; an empty query, an empty batch or a zero head size fails in either variant; its kernel call is causal, uses the unscaled norm factor and drops out only in training; its key offsets and key maximum length are the query's, so they describe the packed tensors only when keys and query have one length |
| DotProductAttention.ExecuteIntended | transformer_engine/pytorch/transformer.py:450-474 | The corrected call: with key offsets built from the keys' own length, a flash choice succeeds iff the tensors are on the accelerator, query, keys and batch are non-empty and the head size is positive, and its offsets describe the packed tensors whenever the batches agree |
| DotProductAttention.ExecuteIntendedAgreesWhenLengthsMatch | transformer_engine/pytorch/transformer.py:266-277 | When query and keys have one length and one batch, the corrected call and the call as written coincide |
| DotProductAttention.ExecuteMisdescribesLongerKeys | transformer_engine/pytorch/transformer.py:458-474 | Whenever the dispatcher runs the flash kernel as written on keys of the query's batch that are longer than the query, the key offsets misdescribe the packed keys |
| DotProductAttention.CheckpointKeepsVariant | transformer_engine/pytorch/transformer.py:458-474 | Checkpointing never changes which variant runs |
| DotProductAttention.ScalingExcludesFlash | transformer_engine/pytorch/transformer.py:372-377 | With query-key layer scaling on, no flash module is built and every call runs the unfused variant |
| DotProductAttention.FlashChoiceSatisfiesFlashChecks | transformer_engine/pytorch/transformer.py:450-456 | Whenever the dispatcher picks flash for accelerator tensors, all of the flash module's own call-time assertions pass |
| KvCache.Allocate | transformer_engine/pytorch/transformer.py:628-638 | A fresh buffer has the requested (sequence, batch) shape |
| KvCache.LookupOrAllocate | transformer_engine/pytorch/transformer.py:665-683 | A present key returns its pair and changes nothing; an absent key gets a fresh pair of shape (max sequence, max batch), stored under the key and nowhere else |
| KvCache.NoReallocation | transformer_engine/pytorch/transformer.py:665-683 | A second lookup of the same key finds the first one's buffers: allocation happens once per key |
| KvCache.Overwrite | transformer_engine/pytorch/transformer.py:769-774 | The slice assignment replaces exactly the cells of the block's rectangle with the block's cells; every other cell is unchanged |
| KvCache.ReadPrefix | transformer_engine/pytorch/transformer.py:775-778 | The read returns the first sequence_end rows restricted to the batch range, cell by cell |
| KvCache.WritePair | transformer_engine/pytorch/transformer.py:769-774 | Keys and values are written into the same rectangle at the same offsets, everything outside it kept |
| KvCache.ReadPair | transformer_engine/pytorch/transformer.py:775-778 | Keys and values are read back over the same prefix and batch range |
| KvCache.Step | transformer_engine/pytorch/transformer.py:761-778 | Without a session keys pass through; with one, the call succeeds iff batch and sequence ends fit the layer's buffers; a failure leaves only the allocation; a success stores the written pair and returns its prefix; session offsets and other layers' entries never change |
| KvCache.StepAppends | transformer_engine/pytorch/transformer.py:761-778 | If the cache holds earlier keys up to the offset, a successful step returns those keys followed by the new ones, and the cache holds them afterwards |
| KvCache.Decode | transformer_engine/pytorch/transformer.py:761-778 | Feeding chunks one call at a time, advancing the sequence offset as the caller does, keeps the session well formed and its batch offset fixed |
| KvCache.DecodeConcatenates | transformer_engine/pytorch/transformer.py:761-778 | Starting from offset 0, a successful incremental decode returns the concatenation of all chunks' keys and values, and the cache holds exactly them |
| KvCache.DecodeLeavesOtherLayers | transformer_engine/pytorch/transformer.py:665-683 | Decoding through one layer's entry leaves every other layer's entry present or absent as before, with the same buffers |
| MultiHeadAttention.Init | transformer_engine/pytorch/transformer.py:509-625 | Construction succeeds iff the attention type is known, the heads split evenly across partitions and the dispatcher can be built, checked in that order, each failure reported as its own check's error; every partition gets a head and the dispatcher shares the block's head size; the cache key is the raw layer number, and sequence parallelism needs more than one partition; the block returns its layernorm output iff it has an input layernorm and was asked to return it; the projections split into the heads iff the hidden size equals the head size times the number of heads (all heads in parallel mode, where each partition's projection holds a 1/tp share; the partition's heads otherwise) |
| MultiHeadAttention.Forward | transformer_engine/pytorch/transformer.py:655-802 | A non-boolean mask fails before the cache is touched; a head-splitting view whose tensor is non-empty and whose width does not split into the block's heads fails after the layer's buffers are allocated and before the cache is written, leaving only the allocation in the session; a non-empty query on such a block always fails; otherwise the session after the call is the cache step's, and the call succeeds iff the cache step and the core-attention call on the cached keys and values do; an empty query, an empty batch or a zero head size always fails; flash runs iff the gate is open, no mask is given and q plus the keys' element type are half precision, where cached keys carry the parameter dtype; a success returns a 3-tuple iff the block returns its layernorm output, else a 2-tuple |
| MultiHeadAttention.NonEmptyCallSucceeds | transformer_engine/pytorch/transformer.py:655-790 | Without a session, a call with a boolean or absent mask, a non-empty query and non-empty keys on a block with a positive head size whose projections split into its heads succeeds in either variant |
| MultiHeadAttention.CachedFlashMisdescribesKeys | transformer_engine/pytorch/transformer.py:761-790 | In a self-attention call with a session past the first position, whenever the flash variant runs, the key offsets its kernel receives do not describe the packed cached keys |
| MultiHeadAttention.BlocksWithoutLayerNumberShareCache | transformer_engine/pytorch/transformer.py:665-683 | Two blocks built without a layer number use one cache entry: after the first block's step, the second finds the first one's buffers |
| MultiHeadAttention.CachedFullPrecisionRunsUnfused | transformer_engine/pytorch/transformer.py:628-638 | With a session and a full-precision parameter dtype, every call runs the unfused variant, whatever element types the projections produce |
| Dataflow.DropPathForward | transformer_engine/pytorch/transformer.py:58-72 | Drop-path returns its input unchanged iff the rate is zero or the module is not training, and applies stochastic depth otherwise |
| TransformerLayer.KvChannels | transformer_engine/pytorch/transformer.py:961-963 | A given non-zero kv_channels is kept; otherwise the head size is the hidden size divided by the head count, rounded down, and zero heads is a division error |
| TransformerLayer.Init | transformer_engine/pytorch/transformer.py:944-1043 | The mask kind, then the layer type, then the rule that weight-gradient fusion needs fused QKV are checked, in that order; the cross-attention block exists iff the layer is a decoder; drop-path exists iff its rate is positive; bias-dropout fusion follows the environment |
| TransformerLayer.InterInit | transformer_engine/pytorch/transformer.py:1008-1016 | A decoder layer gets a cross-attention block with a padding mask and an input layernorm; an encoder layer gets none |
| TransformerLayer.BdaFor | transformer_engine/pytorch/transformer.py:1153-1159 | The fused training kernel runs iff fusion is on and the layer is training; the unfused function runs iff fusion is off, in the layer's mode |
| TransformerLayer.Merge | transformer_engine/pytorch/transformer.py:1162-1173 | Bias-dropout-add is used iff no drop-path is configured, always onto the given residual; stochastic depth appears iff drop-path is active in training or was already in an input |
| TransformerLayer.Unpack | transformer_engine/pytorch/transformer.py:1146-1150 | Unpacking succeeds iff the number of names equals the number of returned values |
| TransformerLayer.SelfStage | transformer_engine/pytorch/transformer.py:1146-1173 | The residual is the block's layernorm output iff residuals are post-layernorm and the layer has no output layernorm, else the hidden states; the merge uses drop-path iff configured |
| TransformerLayer.CrossStage | transformer_engine/pytorch/transformer.py:1176-1193 | The residual is the block's layernorm output iff residuals are post-layernorm, else the stage input; the merge is always bias-dropout-add, never drop-path |
| TransformerLayer.MlpStage | transformer_engine/pytorch/transformer.py:1196-1215 | The residual is the MLP's layernorm output iff residuals are post-layernorm, else the stage input; the merge uses drop-path iff configured |
| TransformerLayer.CrossPart | transformer_engine/pytorch/transformer.py:1176-1193 | The cross-attention stage runs iff the layer is a decoder; a non-boolean cross-attention mask fails |
| TransformerLayer.Rest | transformer_engine/pytorch/transformer.py:1146-1220 | The stages run in order, self-attention then cross-attention (decoders only) then MLP, each on the previous stage's result; the output is wrapped in the final layernorm iff the layer has an output layernorm |
| TransformerLayer.Forward | transformer_engine/pytorch/transformer.py:1126-1145 | A non-boolean mask fails before anything runs; afterwards the session is exactly what the self-attention cache step leaves, or, when the self-attention views fail, what its allocation leaves; a non-empty query on a block whose projections do not split into its heads fails; an empty query, an empty batch or a zero head size fails; a success carries the self-attention block's dispatch |
| TransformerLayer.ConstructedLayersAgreeOnArity | transformer_engine/pytorch/transformer.py:994-1014 | The constructor wires the blocks' layernorm flags so that each block returns exactly as many values as the forward pass unpacks |
| TransformerLayer.RestFailsOnlyInCrossAttention | transformer_engine/pytorch/transformer.py:1146-1203 | With agreeing arities and a boolean or absent cross mask, everything after self-attention succeeds iff the cross-attention block's call does (encoder layers have none) |
| TransformerLayer.ForwardFailsOnlyInAttention | transformer_engine/pytorch/transformer.py:1146-1203 | With agreeing arities and boolean or absent masks, the forward pass succeeds iff the self-attention block's call (cache step and core attention) and, in decoders, the cross-attention block's call succeed: unpacking never fails |
| TransformerLayer.NonEmptyCallSucceeds | transformer_engine/pytorch/transformer.py:1126-1203 | Without a session, a layer with agreeing arities, a positive head size and blocks whose projections split into their heads, called with boolean or absent masks on non-empty queries and keys, succeeds |
| TransformerLayer.ConstructedLayerFailsOnlyInAttention | transformer_engine/pytorch/transformer.py:994-1203 | Every layer the constructor accepts, called with boolean or absent masks, succeeds iff its attention blocks' calls do |
| TransformerLayer.StochasticDepthOnlyWhenTrainingWithDropPath | transformer_engine/pytorch/transformer.py:1162-1215 | Stochastic depth appears in the output iff the layer is training and has a drop-path module |
| TransformerLayer.CrossAttentionIgnoresSession | transformer_engine/pytorch/transformer.py:1176-1183 | The cross-attention dispatch and the layer's output do not depend on the inference session |

## Left out

- Numerics are not modelled, because the model is about control and bookkeeping, not floating point. This covers:
  - the matrix products, masking softmax and dropout of the unfused path (lines 110-195);
  - the flash kernel;
  - the layernorms;
  - the fused bias-dropout-add kernels;
  - the per-sample random mask of `DropPath`.

  Tensors are symbolic terms or cell grids with opaque contents.
- The flash-attention version probe (`pip show flash_attn`, line 43) and the `ImportError` it leads to (lines 214-218) are left out, because they read the installed package set. The model assumes a development build is present.
- The projections are left out: `Linear`, `LayerNormLinear`, `LayerNormMLP` and `LayerNorm` come from other files and are not part of this model. Their weight initialisation, `set_parallel_mode`, `fuse_qkv_params` splitting and `zero_centered_gamma` are treated the same way. Only the layernorm flags that decide the returned tuple's length are modelled, together with the element types and the new keys and values the projections produce.
- Activation checkpointing, the RNG tracker fork, tensor-parallel groups and `set_tensor_parallel_group` are left out. Checkpointing and the fork are recorded as flags; the world size is a parameter.
- JIT fusion set-up and warm-up (lines 1045-1060) are left out. So are the `nullcontext`/`enable_grad` handler chosen from the torch version and `.contiguous()`. They change performance or gradients, not routing.
- Autocast casting (lines 1133-1136) is left out as an operation. It changes the element types of the projections' outputs, which decide dispatch (lines 450-456); the model absorbs that effect by taking those element types (`qType`, `kType`, `vType`) as free inputs.
- `split_tensor_along_last_dim` (lines 714-716 and 732) is left out: it only slices the last axis into equal parts, which the head-splitting views (lines 711, 729 and 755) already make possible. The views themselves are modelled by `MultiHeadAttention.HeadViewsPass`: a view fails exactly when its tensor is non-empty and the projection width differs from heads per partition times head size (times 3 or 2 for the fused projections). The projections' widths come from `Linear`/`LayerNormLinear` (not part of this model): the full hidden size, or, in column-parallel mode, a 1/tp share of it. A column-parallel width that tp does not divide is rejected inside `Linear`; the model reports that case with the view's error, since the call fails either way. The query's extent is a separate input: in self-attention it equals the new keys' extent, which the model does not tie.
- DotProductAttention.UnfusedForward: the reshapes are checked only for a zero given extent. Query, keys and values whose batch, head count or head size disagree also fail in the unfused reshapes and batched products (lines 133, 145-151, 183-184); the attention block never produces such tensors, and the model does not model that failure.
- FlashAttention.ForwardAsWritten: the flash kernel is opaque. Its own failures, for instance on keys of zero length, are not modelled; only the reshape of its output (line 282) is.
- The `int32` element type of `cu_seqlens` is left out; offsets are unbounded integers.
- A decoder layer called without an encoder output fails inside a projection, which is not part of this model. That failure is not modelled.
- Callers advancing `sequence_len_offset` between calls happens outside the file. Only `KvCache.Decode` models that advance, as the caller would do it.
- KvCache.Allocate: the contents of `torch.empty` are unspecified. The model fills fresh buffers with a caller-chosen value, so nothing may depend on reading unwritten cells.

## Findings

| source | as written | input that shows it | evidently intended | confidence | as-written member | corrected member |
|---|---|---|---|---|---|---|
| transformer_engine/pytorch/transformer.py:266-277 | The flash call passes `cu_seqlens` and `max_seqlen`, both computed from the query's sequence length, as the key offsets and key maximum length too | Query of length 1 (one decoding step) with keys of length 3 read back from the KV cache, batch 2: the key offsets end at 2 while the packed keys have 6 rows | Key offsets and maximum length computed from the key's own sequence length | medium, not executed: reachable only when the flash variant runs on cached keys, that is when the parameter dtype is fp16/bf16; MultiHeadAttention.CachedFlashMisdescribesKeys shows every such cached call past the first position is affected | FlashAttention.AsWrittenKeyOffsetsMismatch | FlashAttention.Forward (used by DotProductAttention.ExecuteIntended) |

=== FILE: common.dfy ===
/**
 Shared vocabulary of the transformer model: optional values, results that
 carry the error conditions the Python code raises (assertions,
 ZeroDivisionError, unpacking errors), tensor element types, and the
 `divide` helper the constructors use to split sizes across tensor-parallel
 partitions.
 */
module Common {

  datatype Option<+T> = None | Some(value: T)

  /** Every fatal condition of the modelled code, one constructor per kind of failure. */
  datatype Error =
    | UnsupportedMaskType(maskName: string)
    | UnsupportedLayerType(layerName: string)
    | UnsupportedAttentionType(attentionName: string)
    | WgradFusionNeedsFusedQkv
    | ZeroDivision
    | NotDivisible(numerator: nat, denominator: nat)
    | FlashMaskNotCausal
    | FlashSoftmaxNotFp32
    | FlashDTypeUnsupported
    | FlashNotOnCuda
    | FlashExternalMask
    | ArangeZeroStep
    | ReshapeAmbiguous
    | ViewShapeMismatch
    | MaskNotBool
    | CacheBatchOverflow(batchEnd: nat, batchSize: nat)
    | CacheSeqOverflow(sequenceEnd: nat, sequenceSize: nat)
    | UnpackArity(expected: nat, got: nat)

  datatype Result<+T> = Success(value: T) | Failure(error: Error) {

    predicate IsFailure() {
      Failure?
    }

    function PropagateFailure<U>(): Result<U>
      requires Failure?
    {
      Failure(error)
    }

    function Extract(): T
      requires Success?
    {
      value
    }
  }

  /** Element types of the tensors the dispatcher inspects. */
  datatype DType = Float32 | Float16 | BFloat16 | Float64 | Bool

  /** The two element types the flash kernel accepts. */
  predicate IsHalf(d: DType) {
    d == Float16 || d == BFloat16
  }

  /**
   Exact division of a size by a partition count: fails with a division by
   zero when the count is zero and with an assertion when it does not divide.
   */
  function Divide(n: nat, d: nat): (r: Result<nat>)
    ensures r.Success? <==> d > 0 && n % d == 0
    ensures r.Success? ==> r.value * d == n
    ensures d == 0 ==> r == Failure(ZeroDivision)
  {
    if d == 0 then Failure(ZeroDivision)
    else if n % d != 0 then Failure(NotDivisible(n, d))
    else Success(n / d)
  }

  lemma MulAtLeastFactor(x: int, d: int)
    requires d > 0 && x >= 1
    ensures x * d >= d
  {
  }

  /** Euclidean quotient and remainder are the only ones with 0 <= r < d. */
  lemma DivModUnique(n: int, d: int, q: int, r: int)
    requires d > 0 && 0 <= r < d && n == q * d + r
    ensures n / d == q && n % d == r
  {
    var q', r' := n / d, n % d;
    assert (q - q') * d == r' - r;
    if q > q' {
      MulAtLeastFactor(q - q', d);
    } else if q < q' {
      MulAtLeastFactor(q' - q, d);
    }
  }

  /**
   How attention dropout draws its randomness: a no-op context, or a fork of
   the caller's RNG state tracker.
   */
  datatype DropoutContext = NullContext | TrackerFork

  /** A tensor-parallel group, when given, overrides the tp_size argument. */
  function ResolveTpSize(tpSize: nat, tpGroupWorldSize: Option<nat>): nat {
    match tpGroupWorldSize
    case Some(w) => w
    case None => tpSize
  }
}

=== FILE: dataflow.dfy ===
/**
 Symbolic tensors for the routing of one transformer layer. A term records
 which opaque computation produced a tensor and from which inputs, so the
 model can say which tensor becomes a residual, where dropout and stochastic
 depth are applied, and in what order — without modelling any arithmetic.
 */
module Dataflow {

  /** The three sub-blocks of a layer. */
  datatype Block = SelfAttention | CrossAttention | Mlp

  /** Which bias-dropout-add implementation a stage uses. */
  datatype BdaKind = FusedTrain | FusedInference | Unfused(training: bool)

  datatype Term =
    | Hidden
      /** The first, second and third returned tensors of a block applied to `input`. */
    | BlockOut(block: Block, input: Term)
    | BlockBias(block: Block, input: Term)
    | BlockLayernormOut(block: Block, input: Term)
      /** residual + dropout(x + bias), by the chosen implementation. */
    | BiasDropoutAdd(kind: BdaKind, x: Term, bias: Term, residual: Term, prob: real)
    | Sum(left: Term, right: Term)
    | Dropout(x: Term, prob: real, training: bool)
      /** Per-sample stochastic depth: each sample zeroed or rescaled by 1 / (1 - rate). */
    | StochasticDepth(rate: real, x: Term)
    | FinalLayernorm(x: Term)

  /** Whether stochastic depth is applied anywhere in the computation of `t`. */
  predicate ContainsStochasticDepth(t: Term) {
    match t
    case Hidden => false
    case BlockOut(_, i) => ContainsStochasticDepth(i)
    case BlockBias(_, i) => ContainsStochasticDepth(i)
    case BlockLayernormOut(_, i) => ContainsStochasticDepth(i)
    case BiasDropoutAdd(_, x, b, r, _) =>
      ContainsStochasticDepth(x) || ContainsStochasticDepth(b) || ContainsStochasticDepth(r)
    case Sum(a, b) => ContainsStochasticDepth(a) || ContainsStochasticDepth(b)
    case Dropout(x, _, _) => ContainsStochasticDepth(x)
    case StochasticDepth(_, _) => true
    case FinalLayernorm(x) => ContainsStochasticDepth(x)
  }

  /** The nesting depth of a term; a term is never equal to one of its own sub-terms. */
  function Depth(t: Term): nat {
    match t
    case Hidden => 0
    case BlockOut(_, i) => Depth(i) + 1
    case BlockBias(_, i) => Depth(i) + 1
    case BlockLayernormOut(_, i) => Depth(i) + 1
    case BiasDropoutAdd(_, x, b, r, _) => Max(Depth(x), Max(Depth(b), Depth(r))) + 1
    case Sum(a, b) => Max(Depth(a), Depth(b)) + 1
    case Dropout(x, _, _) => Depth(x) + 1
    case StochasticDepth(_, x) => Depth(x) + 1
    case FinalLayernorm(x) => Depth(x) + 1
  }

  function Max(a: nat, b: nat): nat {
    if a < b then b else a
  }

  /**
   The drop-path module: the identity when the rate is zero or the module is
   in evaluation mode, and stochastic depth otherwise.
   */
  function DropPathForward(rate: real, training: bool, x: Term): (r: Term)
    ensures r == x <==> (rate == 0.0 || !training)
    ensures r != x ==> r == StochasticDepth(rate, x)
    ensures ContainsStochasticDepth(r) <==> (rate != 0.0 && training) || ContainsStochasticDepth(x)
  {
    if rate == 0.0 || !training then x
    else
      assert Depth(StochasticDepth(rate, x)) != Depth(x);
      StochasticDepth(rate, x)
  }
}

=== FILE: dot_product_attention.dfy ===
/**
 The attention dispatcher: its constructor normalises the layer number and
 the query-key layer scaling option, splits sizes across tensor-parallel
 partitions, computes the norm factors of both variants and decides once
 whether the flash variant is a candidate; each call then picks the flash or
 the unfused variant and whether to wrap it in activation checkpointing.
 */
module DotProductAttention {
  import opened Common
  import opened Names
  import FlashAttention

  /**
   Constructor arguments. `flashEnv` is the integer value of the
   NVTE_FLASH_ATTN environment variable (non-zero enables the flash variant);
   `tpGroupWorldSize` is the world size of the tensor-parallel group, if one
   is given.
   */
  datatype Params = Params(
    numHeads: nat,
    kvChannels: nat,
    attentionDropout: real,
    layerNumber: Option<int>,
    qkLayerScaling: bool,
    softmaxInFp32: bool,
    maskType: string,
    sequenceParallel: bool,
    tpSize: nat,
    tpGroupWorldSize: Option<nat>,
    hasRngTracker: bool,
    flashEnv: int)

  /**
   The unfused (reference) variant. `normFactorSq` is the square of its norm
   factor; `softmaxLayerScale` is the layer number handed to the softmax to
   undo the query-key layer scaling, when that scaling is on.
   */
  datatype UnfusedConfig = UnfusedConfig(
    normFactorSq: nat,
    dropout: real,
    maskType: MaskType,
    softmaxInFp32: bool,
    softmaxLayerScale: Option<int>,
    ctx: DropoutContext)

  datatype State = State(
    layerNumber: Option<int>,
    qkLayerScaling: bool,
    softmaxInFp32: bool,
    hiddenPerPartition: nat,
    headDim: nat,
    useFlash: bool,
    flash: Option<FlashAttention.FlashConfig>,
    unfused: UnfusedConfig)
  {
    /**
     The flash module exists exactly when the static gate chose it, and is
     causal with the unscaled norm factor; the unfused norm factor, scaled or
     not, is zero exactly when the head size is.
     */
    predicate Valid() {
      && (flash.Some? <==> useFlash)
      && (flash.Some? ==> flash.value.normFactorSq == headDim && flash.value.causal)
      && (unfused.normFactorSq == 0 <==> headDim == 0)
    }
  }

  datatype Variant = Flash | Unfused

  /** What one forward call runs: which variant, whether checkpointed, whether it receives the mask. */
  datatype AttentionCall = AttentionCall(variant: Variant, checkpointed: bool, maskForwarded: bool)

  /** The layer number as the constructor normalises it: at least 1. */
  function Clamp1(n: int): nat {
    if n < 1 then 1 else n
  }

  function UnfusedInit(
    normFactorSq: nat, dropout: real, layerNumber: Option<int>, qkLayerScaling: bool,
    softmaxInFp32: bool, maskType: string, ctx: DropoutContext): (r: Result<UnfusedConfig>)
    ensures r.Success? <==> ParseMaskType(maskType).Success?
    ensures r.Success? ==> MaskTypeName(r.value.maskType) == maskType
    ensures r.Success? ==> r.value.normFactorSq == normFactorSq
    ensures r.Success? ==> r.value.softmaxLayerScale == (if qkLayerScaling then layerNumber else None)
  {
    var m :- ParseMaskType(maskType);
    Success(UnfusedConfig(normFactorSq, dropout, m, softmaxInFp32,
                          if qkLayerScaling then layerNumber else None, ctx))
  }

  /** The partition count the constructor divides by. */
  function TpSize(p: Params): nat {
    ResolveTpSize(p.tpSize, p.tpGroupWorldSize)
  }

  /** Whether the arguments get past every check of the constructor. */
  predicate Constructible(p: Params) {
    && TpSize(p) > 0
    && (p.kvChannels * p.numHeads) % TpSize(p) == 0
    && p.numHeads > 0
    && (p.maskType == "causal" || p.maskType == "padding")
  }

  lemma ProjectionDividesByHeads(kv: nat, heads: nat)
    ensures heads > 0 ==> (kv * heads) % heads == 0 && (kv * heads) / heads == kv
  {
    if heads > 0 {
      DivModUnique(kv * heads, heads, kv, 0);
    }
  }

  /** Scaling by a positive layer number keeps a norm factor zero exactly when it was. */
  lemma ScaledNormZero(headDim: nat, n: nat)
    requires n >= 1
    ensures headDim * n * n == 0 <==> headDim == 0
  {
    if headDim > 0 {
      assert headDim * n >= headDim;
      assert headDim * n * n >= headDim * n;
    }
  }

  /**
   The part of the constructor after the size checks: layer-number and
   scaling normalisation, the static flash gate, and the two variants.
   */
  function Build(p: Params, perPartition: nat, headDim: nat): (r: Result<State>)
    ensures r.Success? <==> (p.maskType == "causal" || p.maskType == "padding")
    ensures r.Success? ==> r.value.Valid() && r.value.hiddenPerPartition == perPartition && r.value.headDim == headDim
    ensures r.Success? && p.layerNumber.None? ==> r.value.layerNumber.None? && !r.value.qkLayerScaling
    ensures r.Success? && p.layerNumber.Some? ==>
              && r.value.layerNumber == Some(Clamp1(p.layerNumber.value))
              && r.value.qkLayerScaling == p.qkLayerScaling
    ensures r.Success? ==> r.value.softmaxInFp32 == (p.softmaxInFp32 || r.value.qkLayerScaling)
    ensures r.Success? ==>
              (r.value.useFlash <==> (p.flashEnv != 0 && r.value.softmaxInFp32 && p.maskType == "causal"
                                      && !r.value.qkLayerScaling))
    ensures r.Success? && r.value.flash.Some? ==>
              r.value.flash.value.normFactorSq == headDim && r.value.flash.value.causal
    ensures r.Success? && !r.value.qkLayerScaling ==>
              r.value.unfused.normFactorSq == headDim && r.value.unfused.softmaxLayerScale.None?
    ensures r.Success? && r.value.qkLayerScaling ==>
              && r.value.layerNumber.Some?
              && r.value.unfused.normFactorSq == headDim * r.value.layerNumber.value * r.value.layerNumber.value
              && r.value.unfused.softmaxLayerScale == r.value.layerNumber
  {
    var layerNumber: Option<int> := if p.layerNumber.Some? then Some(Clamp1(p.layerNumber.value)) else None;
    var scaling := p.layerNumber.Some? && p.qkLayerScaling;
    var fp32 := scaling || p.softmaxInFp32;
    var ctx := if p.sequenceParallel || !p.hasRngTracker then NullContext else TrackerFork;
    var n := if p.layerNumber.Some? then Clamp1(p.layerNumber.value) else 1;
    var unfusedNormSq: nat := if scaling then headDim * n * n else headDim;
    ScaledNormZero(headDim, n);
    var useFlash := p.flashEnv != 0 && fp32 && p.maskType == "causal" && !scaling;
    // The gate implies the flash constructor's own assertions, so it cannot fail here.
    var flash := if useFlash then Some(FlashAttention.Init(headDim, p.attentionDropout, p.maskType, fp32, ctx).value)
                 else None;
    var unfused :- UnfusedInit(unfusedNormSq, p.attentionDropout, layerNumber, scaling, fp32, p.maskType, ctx);
    Success(State(layerNumber, scaling, fp32, perPartition, headDim, useFlash, flash, unfused))
  }

  /**
   The constructor. The layer number is clamped to at least 1 and, when
   absent, switches query-key layer scaling off; scaling forces an fp32
   softmax. Sizes are split exactly across partitions and heads. The flash
   variant is built only when the environment toggle is set, the softmax is
   fp32, the mask is causal and scaling is off; the unfused variant is always
   built, with the norm factor multiplied by the layer number when scaling is
   on and the same layer number handed to its softmax.
   */
  function Init(p: Params): (r: Result<State>)
    ensures r.Success? <==> Constructible(p)
    ensures r.Success? ==> r.value.hiddenPerPartition * TpSize(p) == p.kvChannels * p.numHeads
    ensures r.Success? ==> r.value.headDim == p.kvChannels
    ensures r.Success? ==> r == Build(p, r.value.hiddenPerPartition, p.kvChannels)
  {
    var projection := p.kvChannels * p.numHeads;
    ProjectionDividesByHeads(p.kvChannels, p.numHeads);
    var perPartition :- Divide(projection, TpSize(p));
    var headDim :- Divide(projection, p.numHeads);
    Build(p, perPartition, headDim)
  }

  /**
   The per-call choice: the flash variant runs only when the static gate
   chose it, no mask is given and all of q, k and v are fp16 or bf16; in every
   other case the unfused variant runs and receives the mask. Checkpointing
   wraps whichever variant was chosen.
   */
  function Dispatch(s: State, maskPresent: bool, q: DType, k: DType, v: DType, checkpoint: bool): (c: AttentionCall)
    requires s.Valid()
    ensures c.variant == Flash ==> s.flash.Some?
    ensures c.variant == Flash <==>
              (s.useFlash && FlashAttention.CheckInputs(
                               FlashAttention.TensorMeta(q, true, 1, 1, 1, 1),
                               FlashAttention.TensorMeta(k, true, 1, 1, 1, 1),
                               FlashAttention.TensorMeta(v, true, 1, 1, 1, 1), maskPresent).Success?)
    ensures c.checkpointed == checkpoint
    ensures c.maskForwarded <==> c.variant == Unfused && maskPresent
  {
    var flash := s.useFlash && !(maskPresent || !IsHalf(q) || !IsHalf(k) || !IsHalf(v));
    if flash then AttentionCall(Flash, checkpoint, false)
    else AttentionCall(Unfused, checkpoint, maskPresent)
  }

  /**
   The failures of the unfused forward pass, whose arithmetic is opaque. The
   query is reshaped to (sq, b * np, -1) and the keys to (sk, b * np, -1),
   with b and np the query's; a reshape whose given sizes multiply to zero
   leaves -1 ambiguous and raises. The scores are then scaled by
   1 / norm_factor, and the values reshaped to (sv, b * np, -1) with their
   own b and np.
   */
  function UnfusedForward(u: UnfusedConfig, q: FlashAttention.TensorMeta, k: FlashAttention.TensorMeta,
                          v: FlashAttention.TensorMeta): (r: Result<()>)
    ensures r.Success? <==> (q.seqLen > 0 && q.batch > 0 && q.heads > 0 && k.seqLen > 0 && u.normFactorSq > 0
                             && v.seqLen > 0 && v.batch > 0 && v.heads > 0)
    ensures q.seqLen == 0 || q.batch == 0 || q.heads == 0 || k.seqLen == 0 ==> r == Failure(ReshapeAmbiguous)
    ensures q.seqLen > 0 && q.batch > 0 && q.heads > 0 && k.seqLen > 0 && u.normFactorSq == 0 ==> r == Failure(ZeroDivision)
  {
    if q.seqLen == 0 || q.batch == 0 || q.heads == 0 then Failure(ReshapeAmbiguous)
    else if k.seqLen == 0 then Failure(ReshapeAmbiguous)
    else if u.normFactorSq == 0 then Failure(ZeroDivision)
    else if v.seqLen == 0 || v.batch == 0 || v.heads == 0 then Failure(ReshapeAmbiguous)
    else Success(())
  }

  /** What one call hands on: the flash kernel's arguments, or the unfused variant with or without the mask. */
  datatype Execution = FlashKernel(kernel: FlashAttention.KernelCall) | UnfusedCore(maskForwarded: bool)

  /**
   One call carried through as the code does it: the dispatch decision, then
   the chosen variant's own checks — for the flash variant its kernel call,
   whose key offsets are built from the query's length, so they describe the
   packed keys only when keys and query have one length.
   */
  function Execute(s: State, maskPresent: bool, q: FlashAttention.TensorMeta, k: FlashAttention.TensorMeta,
                   v: FlashAttention.TensorMeta, checkpoint: bool, training: bool): (r: Result<Execution>)
    requires s.Valid()
    ensures Dispatch(s, maskPresent, q.dtype, k.dtype, v.dtype, checkpoint).variant == Unfused ==>
              (r.Success? <==> UnfusedForward(s.unfused, q, k, v).Success?)
              && (r.Success? ==> r.value == UnfusedCore(maskPresent))
    ensures Dispatch(s, maskPresent, q.dtype, k.dtype, v.dtype, checkpoint).variant == Flash ==>
              (r.Success? <==> q.onCuda && k.onCuda && v.onCuda && q.seqLen > 0 && s.headDim > 0 && q.batch > 0)
              && (r.Success? ==> r.value.FlashKernel?)
    ensures q.seqLen == 0 || q.batch == 0 || s.headDim == 0 ==> r.Failure?
    ensures r.Success? && r.value.FlashKernel? ==>
              r.value.kernel.cuSeqlensK == r.value.kernel.cuSeqlensQ && r.value.kernel.maxSeqlenK == q.seqLen
    ensures r.Success? && r.value.FlashKernel? && FlashAttention.SameBatch(q, k, v) && k.seqLen == q.seqLen ==>
              FlashAttention.Consistent(r.value.kernel)
    ensures r.Success? && r.value.FlashKernel? ==>
              r.value.kernel.normFactorSq == s.headDim && r.value.kernel.causal
              && r.value.kernel.dropout == (if training then s.flash.value.dropout else 0.0)
  {
    var call := Dispatch(s, maskPresent, q.dtype, k.dtype, v.dtype, checkpoint);
    if call.variant == Unfused then
      var _ :- UnfusedForward(s.unfused, q, k, v);
      Success(UnfusedCore(maskPresent))
    else
      var kernel :- FlashAttention.ForwardAsWritten(s.flash.value, q, k, v, maskPresent, training);
      Success(FlashKernel(kernel))
  }

  /**
   The same call with the flash key offsets built from the keys' own length,
   as the packed key layout requires: its offsets describe the packed tensors
   whenever the batches agree, also for cached keys longer than the query.
   */
  function ExecuteIntended(s: State, maskPresent: bool, q: FlashAttention.TensorMeta, k: FlashAttention.TensorMeta,
                           v: FlashAttention.TensorMeta, checkpoint: bool, training: bool): (r: Result<Execution>)
    requires s.Valid()
    ensures Dispatch(s, maskPresent, q.dtype, k.dtype, v.dtype, checkpoint).variant == Unfused ==>
              (r.Success? <==> UnfusedForward(s.unfused, q, k, v).Success?)
              && (r.Success? ==> r.value == UnfusedCore(maskPresent))
    ensures Dispatch(s, maskPresent, q.dtype, k.dtype, v.dtype, checkpoint).variant == Flash ==>
              (r.Success? <==> (q.onCuda && k.onCuda && v.onCuda && q.seqLen > 0 && k.seqLen > 0
                                && s.headDim > 0 && q.batch > 0))
              && (r.Success? ==> r.value.FlashKernel?)
    ensures r.Success? && r.value.FlashKernel? && FlashAttention.SameBatch(q, k, v) ==>
              FlashAttention.Consistent(r.value.kernel)
    ensures r.Success? && r.value.FlashKernel? ==>
              r.value.kernel.normFactorSq == s.headDim && r.value.kernel.causal
              && r.value.kernel.dropout == (if training then s.flash.value.dropout else 0.0)
  {
    var call := Dispatch(s, maskPresent, q.dtype, k.dtype, v.dtype, checkpoint);
    if call.variant == Unfused then
      var _ :- UnfusedForward(s.unfused, q, k, v);
      Success(UnfusedCore(maskPresent))
    else
      var kernel :- FlashAttention.Forward(s.flash.value, q, k, v, maskPresent, training);
      Success(FlashKernel(kernel))
  }

  /** The two agree whenever query and keys have one length and one batch. */
  lemma ExecuteIntendedAgreesWhenLengthsMatch(
    s: State, maskPresent: bool, q: FlashAttention.TensorMeta, k: FlashAttention.TensorMeta,
    v: FlashAttention.TensorMeta, checkpoint: bool, training: bool)
    requires s.Valid() && q.seqLen == k.seqLen && q.batch == k.batch
    ensures ExecuteIntended(s, maskPresent, q, k, v, checkpoint, training) == Execute(s, maskPresent, q, k, v, checkpoint, training)
  {
    if s.flash.Some? {
      FlashAttention.ForwardAgreesWhenLengthsMatch(s.flash.value, q, k, v, maskPresent, training);
    }
  }

  /** Keys of the query's batch but longer than the query are misdescribed by every flash kernel call as written. */
  lemma ExecuteMisdescribesLongerKeys(
    s: State, maskPresent: bool, q: FlashAttention.TensorMeta, k: FlashAttention.TensorMeta,
    v: FlashAttention.TensorMeta, checkpoint: bool, training: bool)
    requires s.Valid() && k.batch == q.batch && k.seqLen > q.seqLen
    ensures var r := Execute(s, maskPresent, q, k, v, checkpoint, training);
            r.Success? && r.value.FlashKernel? ==> !FlashAttention.Consistent(r.value.kernel)
  {
    if s.flash.Some? {
      FlashAttention.AsWrittenMisdescribesLongerKeys(s.flash.value, q, k, v, maskPresent, training);
    }
  }

  /** Checkpointing never changes which variant runs. */
  lemma CheckpointKeepsVariant(s: State, maskPresent: bool, q: DType, k: DType, v: DType)
    requires s.Valid()
    ensures Dispatch(s, maskPresent, q, k, v, true).variant == Dispatch(s, maskPresent, q, k, v, false).variant
  {
  }

  /**
   With query-key layer scaling on, the flash variant is never built, so
   every call of the constructed dispatcher runs the unfused variant.
   */
  lemma ScalingExcludesFlash(p: Params, maskPresent: bool, q: DType, k: DType, v: DType, checkpoint: bool)
    requires Init(p).Success? && Init(p).value.qkLayerScaling
    ensures Init(p).value.flash.None?
    ensures Dispatch(Init(p).value, maskPresent, q, k, v, checkpoint).variant == Unfused
  {
  }

  /**
   Whenever the dispatcher runs the flash variant on tensors that live on the
   accelerator, the variant's own element-type, device and mask assertions
   pass.
   */
  lemma FlashChoiceSatisfiesFlashChecks(
    s: State, maskPresent: bool, q: FlashAttention.TensorMeta, k: FlashAttention.TensorMeta,
    v: FlashAttention.TensorMeta, checkpoint: bool)
    requires s.Valid() && q.onCuda && k.onCuda && v.onCuda
    requires Dispatch(s, maskPresent, q.dtype, k.dtype, v.dtype, checkpoint).variant == Flash
    ensures FlashAttention.CheckInputs(q, k, v, maskPresent).Success?
  {
  }
}

=== FILE: flash_attention.dfy ===
/**
 The bookkeeping of the flash-attention variant: its construction checks, its
 call-time checks on the q/k/v tensors and the mask, and the arguments it
 hands to the opaque kernel `flash_attn_unpadded_func` — in particular the
 cumulative sequence offsets `cu_seqlens` of the packed (batch * seq) layout.
 */
module FlashAttention {
  import opened Common

  /** The metadata of an attention input of logical shape (seq, batch, heads, headDim). */
  datatype TensorMeta = TensorMeta(dtype: DType, onCuda: bool, seqLen: nat, batch: nat, heads: nat, headDim: nat)

  /**
   The constructed module. `normFactorSq` is the square of the norm factor, so
   the kernel's softmax scale is 1 / sqrt(normFactorSq).
   */
  datatype FlashConfig = FlashConfig(normFactorSq: nat, dropout: real, causal: bool, ctx: DropoutContext)

  /** The arguments of one kernel call, plus the (seq, batch, hidden) shape of the result. */
  datatype KernelCall = KernelCall(
    packedRowsQ: nat, packedRowsK: nat, packedRowsV: nat,
    cuSeqlensQ: seq<int>, cuSeqlensK: seq<int>,
    maxSeqlenQ: nat, maxSeqlenK: nat,
    dropout: real, normFactorSq: nat, causal: bool,
    outSeq: nat, outBatch: nat, outHidden: nat)

  /** Construction accepts only the causal mask and an fp32 softmax. */
  function Init(normFactorSq: nat, dropout: real, maskType: string, softmaxInFp32: bool, ctx: DropoutContext): (r: Result<FlashConfig>)
    ensures r.Success? <==> maskType == "causal" && softmaxInFp32
    ensures r.Success? ==> r.value.causal && r.value.normFactorSq == normFactorSq && r.value.dropout == dropout
  {
    if maskType != "causal" then Failure(FlashMaskNotCausal)
    else if !softmaxInFp32 then Failure(FlashSoftmaxNotFp32)
    else Success(FlashConfig(normFactorSq, dropout, maskType == "causal", ctx))
  }

  /**
   `torch.arange(start, end, step)` for a positive step: the values
   start, start + step, ... that stay below `end`, and no more.
   */
  function Arange(start: int, end: int, step: nat): (r: seq<int>)
    requires step > 0
    ensures forall i :: 0 <= i < |r| ==> r[i] == start + i * step && r[i] < end
    ensures start + |r| * step >= end
    decreases end - start
  {
    if start >= end then []
    else
      var rest := Arange(start + step, end, step);
      assert start + step + |rest| * step == start + (|rest| + 1) * step;
      assert forall i :: 1 <= i < |rest| + 1 ==> start + step + (i - 1) * step == start + i * step;
      [start] + rest
  }

  /** An arange whose span is a whole number of steps has exactly that many values. */
  lemma {:induction false} ArangeCount(start: int, n: nat, step: nat)
    requires step > 0
    ensures |Arange(start, start + n * step, step)| == n
    decreases n
  {
    if n > 0 {
      assert start + n * step == (start + step) + (n - 1) * step;
      ArangeCount(start + step, n - 1, step);
    }
  }

  /**
   The packed-sequence offsets: `arange(0, (batch + 1) * seqlen, step=seqlen)`.
   A zero step is an error in torch; otherwise there is one offset per sample
   boundary, evenly spaced by `seqlen`.
   */
  function CuSeqlens(batch: nat, seqlen: nat): (r: Result<seq<int>>)
    ensures r.Failure? <==> seqlen == 0
    ensures r.Success? ==> |r.value| == batch + 1
    ensures r.Success? ==> forall i :: 0 <= i < |r.value| ==> r.value[i] == i * seqlen
    ensures r.Success? ==> r.value[0] == 0 && r.value[batch] == batch * seqlen
    ensures r.Success? ==> forall i :: 0 <= i < batch ==> r.value[i + 1] - r.value[i] == seqlen
  {
    if seqlen == 0 then Failure(ArangeZeroStep)
    else
      var cu := Arange(0, (batch + 1) * seqlen, seqlen);
      ArangeCount(0, batch + 1, seqlen);
      forall i | 0 <= i < batch
        ensures cu[i + 1] - cu[i] == seqlen
      {
        NextMultiple(i, seqlen);
      }
      Success(cu)
  }

  lemma NextMultiple(i: int, step: int)
    ensures (i + 1) * step - i * step == step
  {
  }

  /**
   The call-time assertions, in the order the source checks them: element
   types first, then device, then the absence of an external mask.
   */
  function CheckInputs(q: TensorMeta, k: TensorMeta, v: TensorMeta, maskPresent: bool): (r: Result<()>)
    ensures r.Success? <==> (IsHalf(q.dtype) && IsHalf(k.dtype) && IsHalf(v.dtype)
                             && q.onCuda && k.onCuda && v.onCuda && !maskPresent)
    ensures !(IsHalf(q.dtype) && IsHalf(k.dtype) && IsHalf(v.dtype)) ==> r == Failure(FlashDTypeUnsupported)
  {
    if !(IsHalf(q.dtype) && IsHalf(k.dtype) && IsHalf(v.dtype)) then Failure(FlashDTypeUnsupported)
    else if !(q.onCuda && k.onCuda && v.onCuda) then Failure(FlashNotOnCuda)
    else if maskPresent then Failure(FlashExternalMask)
    else Success(())
  }

  /** `cu` describes a packed layout of `rows` rows split into samples of at most `maxLen` rows. */
  predicate Describes(cu: seq<int>, rows: nat, maxLen: nat) {
    && |cu| >= 1
    && cu[0] == 0
    && cu[|cu| - 1] == rows
    && forall i :: 0 <= i < |cu| - 1 ==> 0 <= cu[i + 1] - cu[i] <= maxLen
  }

  /** The offsets handed to the kernel agree with the packed q/k/v it receives. */
  predicate Consistent(c: KernelCall) {
    && |c.cuSeqlensQ| == |c.cuSeqlensK|
    && Describes(c.cuSeqlensQ, c.packedRowsQ, c.maxSeqlenQ)
    && Describes(c.cuSeqlensK, c.packedRowsK, c.maxSeqlenK)
    && c.packedRowsK == c.packedRowsV
  }

  /** Shapes agree as the attention layer produces them: one batch, k and v of one length. */
  predicate SameBatch(q: TensorMeta, k: TensorMeta, v: TensorMeta) {
    q.batch == k.batch && k.batch == v.batch && k.seqLen == v.seqLen
  }

  /**
   The forward pass as written: both offset vectors and both maximum lengths
   are computed from the QUERY's sequence length. The arange fails on an
   empty query, the softmax scale 1 / norm_factor fails for a zero head size,
   and the final reshape of the kernel's packed output to (batch, seq, -1)
   fails for an empty batch.
   */
  function ForwardAsWritten(f: FlashConfig, q: TensorMeta, k: TensorMeta, v: TensorMeta, maskPresent: bool, training: bool): (r: Result<KernelCall>)
    ensures r.Success? <==> CheckInputs(q, k, v, maskPresent).Success? && q.seqLen > 0 && f.normFactorSq > 0 && q.batch > 0
    ensures CheckInputs(q, k, v, maskPresent).Success? && q.seqLen == 0 ==> r == Failure(ArangeZeroStep)
    ensures CheckInputs(q, k, v, maskPresent).Success? && q.seqLen > 0 && f.normFactorSq == 0 ==> r == Failure(ZeroDivision)
    ensures r.Success? ==> r.value.cuSeqlensK == r.value.cuSeqlensQ && r.value.maxSeqlenK == q.seqLen
    ensures r.Success? && SameBatch(q, k, v) && k.seqLen == q.seqLen ==> Consistent(r.value)
    ensures r.Success? ==> r.value.dropout == (if training then f.dropout else 0.0)
    ensures r.Success? ==> r.value.normFactorSq == f.normFactorSq && r.value.causal == f.causal
    ensures r.Success? ==> r.value.outSeq == q.seqLen && r.value.outBatch == q.batch && r.value.outHidden == q.heads * q.headDim
  {
    var _ :- CheckInputs(q, k, v, maskPresent);
    var cu :- CuSeqlens(q.batch, q.seqLen);
    if f.normFactorSq == 0 then Failure(ZeroDivision)
    else if q.batch == 0 then Failure(ReshapeAmbiguous)
    else
      Success(KernelCall(
        q.batch * q.seqLen, k.batch * k.seqLen, v.batch * v.seqLen,
        cu, cu, q.seqLen, q.seqLen,
        if training then f.dropout else 0.0, f.normFactorSq, f.causal,
        q.seqLen, q.batch, q.heads * q.headDim))
  }

  /**
   With a key longer than the query — as after a KV-cache read — the
   as-written call describes the packed keys with the query's offsets.
   */
  lemma AsWrittenKeyOffsetsMismatch()
    ensures var q := TensorMeta(Float16, true, 1, 2, 1, 1);
            var k := TensorMeta(Float16, true, 3, 2, 1, 1);
            var r := ForwardAsWritten(FlashConfig(1, 0.0, true, NullContext), q, k, k, false, false);
            r.Success? && !Consistent(r.value)
  {
    var q := TensorMeta(Float16, true, 1, 2, 1, 1);
    var k := TensorMeta(Float16, true, 3, 2, 1, 1);
    var r := ForwardAsWritten(FlashConfig(1, 0.0, true, NullContext), q, k, k, false, false);
    assert r.value.cuSeqlensK[2] == 2;
    assert r.value.packedRowsK == 6;
  }

  /**
   More generally, whenever the keys of one batch are longer than the query,
   an accepted as-written call hands the kernel key offsets that end short of
   the packed keys.
   */
  lemma AsWrittenMisdescribesLongerKeys(f: FlashConfig, q: TensorMeta, k: TensorMeta, v: TensorMeta, maskPresent: bool, training: bool)
    requires k.batch == q.batch && k.seqLen > q.seqLen
    ensures var r := ForwardAsWritten(f, q, k, v, maskPresent, training);
            r.Success? ==> !Consistent(r.value)
  {
    var r := ForwardAsWritten(f, q, k, v, maskPresent, training);
    if r.Success? {
      var b := q.batch;
      assert r.value.cuSeqlensK == CuSeqlens(b, q.seqLen).value;
      assert r.value.cuSeqlensK[b] == b * q.seqLen && |r.value.cuSeqlensK| == b + 1;
      assert r.value.packedRowsK == b * k.seqLen;
      MulGrows(b, q.seqLen, k.seqLen);
    }
  }

  lemma MulGrows(b: nat, n: nat, m: nat)
    requires b > 0 && n < m
    ensures b * n < b * m
  {
  }

  /**
   The forward pass with the key offsets taken from the key's own sequence
   length, which is what the packed key layout requires.
   */
  function Forward(f: FlashConfig, q: TensorMeta, k: TensorMeta, v: TensorMeta, maskPresent: bool, training: bool): (r: Result<KernelCall>)
    ensures r.Success? <==> (CheckInputs(q, k, v, maskPresent).Success? && q.seqLen > 0 && k.seqLen > 0
                             && f.normFactorSq > 0 && q.batch > 0)
    ensures r.Success? && SameBatch(q, k, v) ==> Consistent(r.value)
    ensures r.Success? ==> r.value.dropout == (if training then f.dropout else 0.0)
    ensures r.Success? ==> r.value.normFactorSq == f.normFactorSq && r.value.causal == f.causal
    ensures r.Success? ==> r.value.outSeq == q.seqLen && r.value.outBatch == q.batch && r.value.outHidden == q.heads * q.headDim
  {
    var _ :- CheckInputs(q, k, v, maskPresent);
    var cuQ :- CuSeqlens(q.batch, q.seqLen);
    var cuK :- CuSeqlens(k.batch, k.seqLen);
    if f.normFactorSq == 0 then Failure(ZeroDivision)
    else if q.batch == 0 then Failure(ReshapeAmbiguous)
    else
      Success(KernelCall(
        q.batch * q.seqLen, k.batch * k.seqLen, v.batch * v.seqLen,
        cuQ, cuK, q.seqLen, k.seqLen,
        if training then f.dropout else 0.0, f.normFactorSq, f.causal,
        q.seqLen, q.batch, q.heads * q.headDim))
  }

  /** When query and key have one length the correction changes nothing. */
  lemma ForwardAgreesWhenLengthsMatch(f: FlashConfig, q: TensorMeta, k: TensorMeta, v: TensorMeta, maskPresent: bool, training: bool)
    requires q.seqLen == k.seqLen && q.batch == k.batch
    ensures Forward(f, q, k, v, maskPresent, training) == ForwardAsWritten(f, q, k, v, maskPresent, training)
  {
  }
}

=== FILE: kv_cache.dfy ===
/**
 The inference key/value cache of the attention block. The caller's
 inference session holds, per layer key, a pair of buffers of shape
 (max_sequence_len, max_batch_size, heads, head_dim); the block allocates the
 pair on first use, writes each call's new keys and values at the session's
 (sequence, batch) offsets, and reads back every position written so far.

 A buffer is a 2-D grid over (sequence position, batch index); a cell stands
 for the (heads, head_dim) slice at that position, whose contents the model
 does not inspect.
 */
module KvCache {
  import opened Common

  datatype Buffer<T> = Buffer(seqLen: nat, batch: nat, cells: seq<seq<T>>) {
    /** The grid has exactly `seqLen` rows of `batch` cells. */
    predicate Valid() {
      |cells| == seqLen && forall i :: 0 <= i < |cells| ==> |cells[i]| == batch
    }
  }

  /**
   The key of a layer's entry in the session's buffer dictionary. The
   attention block stores its layer number as the one-element tuple
   `(layer_number,)`, so the key wraps the raw, possibly absent, number.
   */
  datatype LayerKey = LayerKey(layerNumber: Option<int>)

  datatype KvPair<T> = KvPair(key: Buffer<T>, value: Buffer<T>)

  datatype InferenceParams<T> = InferenceParams(
    maxSequenceLen: nat,
    maxBatchSize: nat,
    sequenceLenOffset: nat,
    batchSizeOffset: nat,
    memory: map<LayerKey, KvPair<T>>)

  /** Both buffers of a pair are well formed and of one shape. */
  predicate PairValid<T>(p: KvPair<T>) {
    p.key.Valid() && p.value.Valid() && p.key.seqLen == p.value.seqLen && p.key.batch == p.value.batch
  }

  predicate WellFormed<T>(ip: InferenceParams<T>) {
    forall k :: k in ip.memory ==> PairValid(ip.memory[k])
  }

  /**
   A fresh buffer. `torch.empty` leaves the contents unspecified; the caller
   chooses the filler that stands for them.
   */
  function Allocate<T>(seqLen: nat, batch: nat, fill: T): (b: Buffer<T>)
    ensures b.Valid() && b.seqLen == seqLen && b.batch == batch
  {
    Buffer(seqLen, batch, seq(seqLen, _ => seq(batch, _ => fill)))
  }

  /**
   The buffers of a layer: the stored pair when the key is present, else a
   fresh pair of shape (max_sequence_len, max_batch_size) that is stored
   under the key. No other entry changes.
   */
  function LookupOrAllocate<T>(ip: InferenceParams<T>, key: LayerKey, fill: T): (r: (InferenceParams<T>, KvPair<T>))
    ensures key in r.0.memory && r.0.memory[key] == r.1
    ensures key in ip.memory ==> r.0 == ip
    ensures key !in ip.memory ==>
              && r.0 == ip.(memory := ip.memory[key := r.1])
              && PairValid(r.1)
              && r.1.key.seqLen == ip.maxSequenceLen && r.1.key.batch == ip.maxBatchSize
    ensures WellFormed(ip) ==> WellFormed(r.0)
  {
    if key in ip.memory then (ip, ip.memory[key])
    else
      var pair := KvPair(Allocate(ip.maxSequenceLen, ip.maxBatchSize, fill),
                         Allocate(ip.maxSequenceLen, ip.maxBatchSize, fill));
      (ip.(memory := ip.memory[key := pair]), pair)
  }

  /** A second lookup finds what the first one stored, whatever filler it is given: no reallocation. */
  lemma NoReallocation<T>(ip: InferenceParams<T>, key: LayerKey, fill: T, fill': T)
    ensures LookupOrAllocate(LookupOrAllocate(ip, key, fill).0, key, fill') == LookupOrAllocate(ip, key, fill)
  {
  }

  /** Whether cell (i, j) lies in the block written at (seqStart, batchStart). */
  predicate InBlock(i: int, j: int, seqStart: nat, batchStart: nat, seqCount: nat, batchCount: nat) {
    seqStart <= i < seqStart + seqCount && batchStart <= j < batchStart + batchCount
  }

  /**
   `buf[seqStart:seqEnd, batchStart:batchEnd] = block`: the block's cells
   replace exactly the cells of its rectangle; all others keep their values.
   */
  function Overwrite<T>(buf: Buffer<T>, seqStart: nat, batchStart: nat, block: Buffer<T>): (r: Buffer<T>)
    requires buf.Valid() && block.Valid()
    requires seqStart + block.seqLen <= buf.seqLen && batchStart + block.batch <= buf.batch
    ensures r.Valid() && r.seqLen == buf.seqLen && r.batch == buf.batch
    ensures forall i, j :: 0 <= i < r.seqLen && 0 <= j < r.batch && InBlock(i, j, seqStart, batchStart, block.seqLen, block.batch)
              ==> r.cells[i][j] == block.cells[i - seqStart][j - batchStart]
    ensures forall i, j :: 0 <= i < r.seqLen && 0 <= j < r.batch && !InBlock(i, j, seqStart, batchStart, block.seqLen, block.batch)
              ==> r.cells[i][j] == buf.cells[i][j]
  {
    Buffer(buf.seqLen, buf.batch,
           seq(buf.seqLen, i requires 0 <= i < buf.seqLen =>
             seq(buf.batch, j requires 0 <= j < buf.batch =>
               if InBlock(i, j, seqStart, batchStart, block.seqLen, block.batch)
               then block.cells[i - seqStart][j - batchStart]
               else buf.cells[i][j])))
  }

  /** `buf[:seqEnd, batchStart:batchEnd]`: the first `seqEnd` rows, restricted to the batch range. */
  function ReadPrefix<T>(buf: Buffer<T>, seqEnd: nat, batchStart: nat, batchEnd: nat): (r: Buffer<T>)
    requires buf.Valid() && seqEnd <= buf.seqLen && batchStart <= batchEnd <= buf.batch
    ensures r.Valid() && r.seqLen == seqEnd && r.batch == batchEnd - batchStart
    ensures forall i, j :: 0 <= i < r.seqLen && 0 <= j < r.batch ==> r.cells[i][j] == buf.cells[i][batchStart + j]
  {
    Buffer(seqEnd, batchEnd - batchStart,
           seq(seqEnd, i requires 0 <= i < seqEnd => buf.cells[i][batchStart..batchEnd]))
  }

  /** The new keys and values of one call form one well-formed pair. */
  predicate NewBlocks<T>(newKey: Buffer<T>, newValue: Buffer<T>) {
    PairValid(KvPair(newKey, newValue))
  }

  /**
   The in-place copy of one call's keys and values into the layer's pair:
   inside the block's rectangle both buffers hold the new cells, outside it
   they keep their old ones.
   */
  function WritePair<T>(pair: KvPair<T>, seqStart: nat, batchStart: nat, newKey: Buffer<T>, newValue: Buffer<T>): (r: KvPair<T>)
    requires PairValid(pair) && NewBlocks(newKey, newValue)
    requires seqStart + newKey.seqLen <= pair.key.seqLen && batchStart + newKey.batch <= pair.key.batch
    ensures PairValid(r) && r.key.seqLen == pair.key.seqLen && r.key.batch == pair.key.batch
    ensures forall i, j :: 0 <= i < r.key.seqLen && 0 <= j < r.key.batch ==>
              if InBlock(i, j, seqStart, batchStart, newKey.seqLen, newKey.batch)
              then r.key.cells[i][j] == newKey.cells[i - seqStart][j - batchStart]
                   && r.value.cells[i][j] == newValue.cells[i - seqStart][j - batchStart]
              else r.key.cells[i][j] == pair.key.cells[i][j] && r.value.cells[i][j] == pair.value.cells[i][j]
  {
    KvPair(Overwrite(pair.key, seqStart, batchStart, newKey), Overwrite(pair.value, seqStart, batchStart, newValue))
  }

  /** The keys and values handed to attention: the prefix of both buffers, restricted to the batch range. */
  function ReadPair<T>(pair: KvPair<T>, seqEnd: nat, batchStart: nat, batchEnd: nat): (r: KvPair<T>)
    requires PairValid(pair) && seqEnd <= pair.key.seqLen && batchStart <= batchEnd <= pair.key.batch
    ensures PairValid(r) && r.key.seqLen == seqEnd && r.key.batch == batchEnd - batchStart
    ensures forall i, j :: 0 <= i < seqEnd && 0 <= j < batchEnd - batchStart ==>
              r.key.cells[i][j] == pair.key.cells[i][batchStart + j]
              && r.value.cells[i][j] == pair.value.cells[i][batchStart + j]
  {
    KvPair(ReadPrefix(pair.key, seqEnd, batchStart, batchEnd), ReadPrefix(pair.value, seqEnd, batchStart, batchEnd))
  }

  /** The (sequence, batch) extent of the layer's buffers once looked up or allocated. */
  function CacheExtent<T>(ip: InferenceParams<T>, key: LayerKey): (nat, nat) {
    if key in ip.memory then (ip.memory[key].key.seqLen, ip.memory[key].key.batch)
    else (ip.maxSequenceLen, ip.maxBatchSize)
  }

  /** Whether the new block fits the layer's buffers at the session's offsets. */
  predicate Fits<T>(ip: InferenceParams<T>, key: LayerKey, newKey: Buffer<T>) {
    && ip.batchSizeOffset + newKey.batch <= CacheExtent(ip, key).1
    && ip.sequenceLenOffset + newKey.seqLen <= CacheExtent(ip, key).0
  }

  /** The outcome of one call: the session afterwards (also on failure) and the keys/values attention sees. */
  datatype StepOutcome<T> = StepOutcome(params: Option<InferenceParams<T>>, result: Result<KvPair<T>>)

  /**
   One call's cache step. Without a session the new keys and values pass
   through. With one, the layer's buffers are looked up or allocated, the
   batch and sequence ends are checked against the key buffer, the new keys
   and values are written at the session's offsets and the prefix up to the
   sequence end, restricted to the batch range, is returned.
   */
  function Step<T>(params: Option<InferenceParams<T>>, key: LayerKey, fill: T, newKey: Buffer<T>, newValue: Buffer<T>): (o: StepOutcome<T>)
    requires NewBlocks(newKey, newValue)
    requires params.Some? ==> WellFormed(params.value)
    ensures params.None? ==> o == StepOutcome(None, Success(KvPair(newKey, newValue)))
    ensures params.Some? ==> o.params.Some? && WellFormed(o.params.value)
    // the session's own fields and every other layer's entry are left alone
    ensures params.Some? ==>
              var ip, ip' := params.value, o.params.value;
              && ip'.maxSequenceLen == ip.maxSequenceLen && ip'.maxBatchSize == ip.maxBatchSize
              && ip'.sequenceLenOffset == ip.sequenceLenOffset && ip'.batchSizeOffset == ip.batchSizeOffset
              && key in ip'.memory
              && (forall k :: k != key ==> (k in ip'.memory <==> k in ip.memory))
              && (forall k :: k != key && k in ip.memory ==> ip'.memory[k] == ip.memory[k])
    // the call succeeds exactly when the new block fits the (possibly fresh) key buffer
    ensures params.Some? ==> (o.result.Success? <==> Fits(params.value, key, newKey))
    // a failed call has allocated (if the key was new) but written nothing
    ensures params.Some? && o.result.Failure? ==> o.params.value == LookupOrAllocate(params.value, key, fill).0
    // a successful call stores the written pair and returns its prefix
    ensures params.Some? && o.result.Success? ==>
              var ip := params.value;
              var before := LookupOrAllocate(ip, key, fill).1;
              var stored := o.params.value.memory[key];
              && stored == WritePair(before, ip.sequenceLenOffset, ip.batchSizeOffset, newKey, newValue)
              && o.result.value == ReadPair(stored, ip.sequenceLenOffset + newKey.seqLen,
                                            ip.batchSizeOffset, ip.batchSizeOffset + newKey.batch)
  {
    match params
    case None => StepOutcome(None, Success(KvPair(newKey, newValue)))
    case Some(ip) =>
      var (ip1, mem) := LookupOrAllocate(ip, key, fill);
      var batchStart := ip.batchSizeOffset;
      var batchEnd := batchStart + newKey.batch;
      var seqStart := ip.sequenceLenOffset;
      var seqEnd := seqStart + newKey.seqLen;
      if batchEnd > mem.key.batch then StepOutcome(Some(ip1), Failure(CacheBatchOverflow(batchEnd, mem.key.batch)))
      else if seqEnd > mem.key.seqLen then StepOutcome(Some(ip1), Failure(CacheSeqOverflow(seqEnd, mem.key.seqLen)))
      else
        var stored := WritePair(mem, seqStart, batchStart, newKey, newValue);
        StepOutcome(Some(ip1.(memory := ip1.memory[key := stored])), Success(ReadPair(stored, seqEnd, batchStart, batchEnd)))
  }

  /**
   The layer's stored buffers hold `keys` and `values` in their first
   |keys| rows, within the batch range [batchStart, batchStart + width).
   */
  ghost predicate Holds<T>(ip: InferenceParams<T>, key: LayerKey, batchStart: nat, width: nat,
                     keys: seq<seq<T>>, values: seq<seq<T>>) {
    && |keys| == |values|
    && (forall i :: 0 <= i < |keys| ==> |keys[i]| == width && |values[i]| == width)
    && (|keys| > 0 ==>
          && key in ip.memory
          && PairValid(ip.memory[key])
          && |keys| <= ip.memory[key].key.seqLen
          && batchStart + width <= ip.memory[key].key.batch
          && forall i, j :: 0 <= i < |keys| && 0 <= j < width ==>
               && ip.memory[key].key.cells[i][batchStart + j] == keys[i][j]
               && ip.memory[key].value.cells[i][batchStart + j] == values[i][j])
  }

  /** `rows` (each of `width` cells) sit in the first |rows| rows of `buf`, from batch index `batchStart` on. */
  ghost predicate RowsAt<T>(buf: Buffer<T>, batchStart: nat, width: nat, rows: seq<seq<T>>) {
    && buf.Valid()
    && |rows| <= buf.seqLen
    && batchStart + width <= buf.batch
    && (forall i :: 0 <= i < |rows| ==> |rows[i]| == width)
    && forall i, j :: 0 <= i < |rows| && 0 <= j < width ==> buf.cells[i][batchStart + j] == rows[i][j]
  }

  /** Writing a block just past rows already in place leaves the old rows followed by the block's. */
  lemma OverwriteExtends<T>(buf: Buffer<T>, batchStart: nat, rows: seq<seq<T>>, block: Buffer<T>)
    requires block.Valid() && RowsAt(buf, batchStart, block.batch, rows)
    requires |rows| + block.seqLen <= buf.seqLen
    ensures RowsAt(Overwrite(buf, |rows|, batchStart, block), batchStart, block.batch, rows + block.cells)
  {
    var r := Overwrite(buf, |rows|, batchStart, block);
    var all := rows + block.cells;
    forall i, j | 0 <= i < |all| && 0 <= j < block.batch
      ensures r.cells[i][batchStart + j] == all[i][j]
    {
      if i < |rows| {
        assert !InBlock(i, batchStart + j, |rows|, batchStart, block.seqLen, block.batch);
      } else {
        assert InBlock(i, batchStart + j, |rows|, batchStart, block.seqLen, block.batch);
      }
    }
  }

  /** Reading back exactly the rows in place returns them. */
  lemma ReadPrefixRows<T>(buf: Buffer<T>, batchStart: nat, width: nat, rows: seq<seq<T>>)
    requires RowsAt(buf, batchStart, width, rows)
    ensures ReadPrefix(buf, |rows|, batchStart, batchStart + width).cells == rows
  {
    var r := ReadPrefix(buf, |rows|, batchStart, batchStart + width);
    forall i | 0 <= i < |rows|
      ensures r.cells[i] == rows[i]
    {
      assert |r.cells[i]| == width;
    }
  }

  lemma HoldsGivesRows<T>(ip: InferenceParams<T>, key: LayerKey, batchStart: nat, width: nat,
                          keys: seq<seq<T>>, values: seq<seq<T>>)
    requires Holds(ip, key, batchStart, width, keys, values) && |keys| > 0
    ensures RowsAt(ip.memory[key].key, batchStart, width, keys)
    ensures RowsAt(ip.memory[key].value, batchStart, width, values)
  {
  }

  lemma RowsGiveHolds<T>(ip: InferenceParams<T>, key: LayerKey, batchStart: nat, width: nat,
                         keys: seq<seq<T>>, values: seq<seq<T>>)
    requires key in ip.memory && PairValid(ip.memory[key]) && |keys| == |values|
    requires RowsAt(ip.memory[key].key, batchStart, width, keys)
    requires RowsAt(ip.memory[key].value, batchStart, width, values)
    ensures Holds(ip, key, batchStart, width, keys, values)
  {
  }

  /**
   Incremental decoding, one step: when the buffers already hold the earlier
   keys and values and the sequence offset points just past them, a
   successful call hands attention the earlier rows followed by the new ones,
   and leaves the buffers holding all of them.
   */
  lemma StepAppends<T>(ip: InferenceParams<T>, key: LayerKey, fill: T, keys: seq<seq<T>>, values: seq<seq<T>>,
                       newKey: Buffer<T>, newValue: Buffer<T>)
    requires WellFormed(ip) && NewBlocks(newKey, newValue)
    requires Holds(ip, key, ip.batchSizeOffset, newKey.batch, keys, values)
    requires ip.sequenceLenOffset == |keys|
    ensures var o := Step(Some(ip), key, fill, newKey, newValue);
            o.result.Success? ==>
              && o.result.value.key.cells == keys + newKey.cells
              && o.result.value.value.cells == values + newValue.cells
              && Holds(o.params.value, key, ip.batchSizeOffset, newKey.batch, keys + newKey.cells, values + newValue.cells)
  {
    var o := Step(Some(ip), key, fill, newKey, newValue);
    if o.result.Success? {
      var before := LookupOrAllocate(ip, key, fill).1;
      var bs, w, n := ip.batchSizeOffset, newKey.batch, |keys|;
      var allKeys, allValues := keys + newKey.cells, values + newValue.cells;
      var stored := o.params.value.memory[key];
      assert Fits(ip, key, newKey);
      assert RowsAt(before.key, bs, w, keys) && RowsAt(before.value, bs, w, values) by {
        if n > 0 {
          HoldsGivesRows(ip, key, bs, w, keys, values);
        }
      }
      assert RowsAt(stored.key, bs, w, allKeys) by {
        OverwriteExtends(before.key, bs, keys, newKey);
      }
      assert RowsAt(stored.value, bs, w, allValues) by {
        OverwriteExtends(before.value, bs, values, newValue);
      }
      ReadPrefixRows(stored.key, bs, w, allKeys);
      ReadPrefixRows(stored.value, bs, w, allValues);
      RowsGiveHolds(o.params.value, key, bs, w, allKeys, allValues);
    }
  }

  /** The rows of a sequence of blocks, one block after the other. */
  function Concat<T>(blocks: seq<Buffer<T>>): seq<seq<T>> {
    if |blocks| == 0 then [] else Concat(blocks[..|blocks| - 1]) + blocks[|blocks| - 1].cells
  }

  /** Every block is a valid pair and all have one batch width. */
  predicate Chunks<T>(keys: seq<Buffer<T>>, values: seq<Buffer<T>>, width: nat) {
    && |keys| == |values| > 0
    && forall i :: 0 <= i < |keys| ==> NewBlocks(keys[i], values[i]) && keys[i].batch == width
  }

  /**
   A generation loop over one layer: each call writes the next chunk, and the
   caller then moves the sequence offset to the length of the keys just read
   back. The outcome is the last call's, or the first failure.
   */
  function Decode<T>(ip: InferenceParams<T>, key: LayerKey, fill: T, keys: seq<Buffer<T>>, values: seq<Buffer<T>>, width: nat): (o: StepOutcome<T>)
    requires WellFormed(ip) && Chunks(keys, values, width)
    ensures o.params.Some? && WellFormed(o.params.value)
    ensures o.params.value.batchSizeOffset == ip.batchSizeOffset
    decreases |keys|
  {
    if |keys| == 1 then Step(Some(ip), key, fill, keys[0], values[0])
    else
      var prev := Decode(ip, key, fill, keys[..|keys| - 1], values[..|values| - 1], width);
      if prev.result.Failure? then prev
      else
        var ip' := prev.params.value.(sequenceLenOffset := prev.result.value.key.seqLen);
        Step(Some(ip'), key, fill, keys[|keys| - 1], values[|values| - 1])
  }

  /**
   Token-by-token decoding through the cache, started at sequence offset 0,
   hands attention at its last call exactly the keys and values of all
   chunks in order — what one call over the whole sequence would see.
   */
  lemma {:induction false} DecodeConcatenates<T>(ip: InferenceParams<T>, key: LayerKey, fill: T,
                                                 keys: seq<Buffer<T>>, values: seq<Buffer<T>>, width: nat)
    requires WellFormed(ip) && Chunks(keys, values, width) && ip.sequenceLenOffset == 0
    ensures var o := Decode(ip, key, fill, keys, values, width);
            o.result.Success? ==>
              && o.result.value.key.cells == Concat(keys)
              && o.result.value.value.cells == Concat(values)
              && Holds(o.params.value, key, ip.batchSizeOffset, width, Concat(keys), Concat(values))
    decreases |keys|
  {
    var o := Decode(ip, key, fill, keys, values, width);
    if |keys| == 1 {
      assert Concat(keys) == Concat(keys[..0]) + keys[0].cells == keys[0].cells;
      assert Concat(values) == values[0].cells;
      StepAppends(ip, key, fill, [], [], keys[0], values[0]);
      assert [] + keys[0].cells == keys[0].cells;
      assert [] + values[0].cells == values[0].cells;
    } else {
      var ks, vs := keys[..|keys| - 1], values[..|values| - 1];
      assert Chunks(ks, vs, width);
      var prev := Decode(ip, key, fill, ks, vs, width);
      DecodeConcatenates(ip, key, fill, ks, vs, width);
      if prev.result.Success? {
        var ip' := prev.params.value.(sequenceLenOffset := prev.result.value.key.seqLen);
        assert prev.result.value.key.Valid();
        assert ip'.sequenceLenOffset == |Concat(ks)|;
        StepAppends(ip', key, fill, Concat(ks), Concat(vs), keys[|keys| - 1], values[|values| - 1]);
      }
    }
  }

  /**
   Decoding through one layer's entry never touches another layer's: every
   other key stays present or absent as before, with the same buffers.
   */
  lemma {:induction false} DecodeLeavesOtherLayers<T>(ip: InferenceParams<T>, key: LayerKey, fill: T,
                                                     keys: seq<Buffer<T>>, values: seq<Buffer<T>>, width: nat,
                                                     other: LayerKey)
    requires WellFormed(ip) && Chunks(keys, values, width) && other != key
    ensures var o := Decode(ip, key, fill, keys, values, width);
            && (other in o.params.value.memory <==> other in ip.memory)
            && (other in ip.memory ==> o.params.value.memory[other] == ip.memory[other])
    decreases |keys|
  {
    if |keys| > 1 {
      var ks, vs := keys[..|keys| - 1], values[..|values| - 1];
      assert Chunks(ks, vs, width);
      DecodeLeavesOtherLayers(ip, key, fill, ks, vs, width, other);
    }
  }
}

=== FILE: multi_head_attention.dfy ===
/**
 The multi-head attention block around the dispatcher: its constructor
 checks the attention type and splits the heads across partitions, and its
 forward pass checks the mask, runs the inference KV-cache step, and hands
 the resulting keys and values to the dispatcher. The q/k/v/output
 projections are opaque; only their effect on element types and the shape
 of the returned tuple is modelled.
 */
module MultiHeadAttention {
  import opened Common
  import opened Names
  import D = DotProductAttention
  import FA = FlashAttention
  import KvCache

  datatype Params = Params(
    hiddenSize: nat,
    numHeads: nat,
    kvChannels: nat,
    attentionDropout: real,
    layerNumber: Option<int>,
    qkLayerScaling: bool,
    softmaxInFp32: bool,
    maskType: string,
    tpGroupWorldSize: Option<nat>,
    tpSize: nat,
    hasRngTracker: bool,
    sequenceParallel: bool,
    paramsDType: DType,
    returnLayernormOutput: bool,
    inputLayernorm: bool,
    attentionType: string,
    flashEnv: int,
    setParallelMode: bool)

  datatype State = State(
    layerKey: KvCache.LayerKey,
    inputLayernorm: bool,
    attentionType: AttnType,
    returnLayernormOutput: bool,
    paramsDType: DType,
    tpSize: nat,
    sequenceParallel: bool,
    headsPerPartition: nat,
    headDim: nat,
    core: D.State,
    hiddenSize: nat,
    parallelMode: bool)
  {
    /** The dispatcher is well formed and shares the block's head size; every partition has a head. */
    predicate Valid() {
      core.Valid() && core.headDim == headDim && headsPerPartition > 0
    }
  }

  /** The arguments the block hands to its dispatcher. */
  function CoreParams(p: Params): (c: D.Params)
    ensures c.numHeads == p.numHeads && c.kvChannels == p.kvChannels && c.layerNumber == p.layerNumber
    ensures c.maskType == p.maskType && D.TpSize(c) == ResolveTpSize(p.tpSize, p.tpGroupWorldSize)
  {
    D.Params(p.numHeads, p.kvChannels, p.attentionDropout, p.layerNumber, p.qkLayerScaling,
             p.softmaxInFp32, p.maskType, p.sequenceParallel, ResolveTpSize(p.tpSize, p.tpGroupWorldSize),
             p.tpGroupWorldSize, p.hasRngTracker, p.flashEnv)
  }

  /**
   Whether the projections' outputs split into this block's heads. The query
   projection (and each third of the fused qkv, each half of the fused kv) is
   hidden_size wide; in parallel mode the column-parallel linear layer splits
   that width evenly across the partitions, otherwise it keeps it whole. The
   forward pass views that width as (heads per partition, head size), which
   needs the two to match.
   */
  predicate ProjectionFits(s: State) {
    s.hiddenSize == (if s.parallelMode then s.tpSize else 1) * s.headsPerPartition * s.headDim
  }

  /**
   The constructor. The attention type must be known and the heads must
   split evenly across partitions before the dispatcher is built. The layer
   number is kept as the one-element tuple, unclamped.
   */
  function Init(p: Params): (r: Result<State>)
    ensures r.Success? <==>
              && ParseAttnType(p.attentionType).Success?
              && Divide(p.numHeads, ResolveTpSize(p.tpSize, p.tpGroupWorldSize)).Success?
              && D.Init(CoreParams(p)).Success?
    ensures ParseAttnType(p.attentionType).Failure? ==> r == Failure(UnsupportedAttentionType(p.attentionType))
    ensures ParseAttnType(p.attentionType).Success? && Divide(p.numHeads, ResolveTpSize(p.tpSize, p.tpGroupWorldSize)).Failure? ==>
              r == Failure(Divide(p.numHeads, ResolveTpSize(p.tpSize, p.tpGroupWorldSize)).error)
    ensures (ParseAttnType(p.attentionType).Success? && Divide(p.numHeads, ResolveTpSize(p.tpSize, p.tpGroupWorldSize)).Success?
             && D.Init(CoreParams(p)).Failure?) ==> r == Failure(D.Init(CoreParams(p)).error)
    ensures r.Success? ==>
              && r.value.Valid()
              && r.value.layerKey == KvCache.LayerKey(p.layerNumber)
              && AttnTypeName(r.value.attentionType) == p.attentionType
              && r.value.headsPerPartition * r.value.tpSize == p.numHeads
              && r.value.headDim == p.kvChannels
              && r.value.core == D.Init(CoreParams(p)).value
              && r.value.sequenceParallel == (r.value.tpSize > 1 && p.sequenceParallel)
              && r.value.inputLayernorm == p.inputLayernorm
              && r.value.returnLayernormOutput == p.returnLayernormOutput
              && (ReturnsLayernormOutput(r.value) <==> p.inputLayernorm && p.returnLayernormOutput)
              && r.value.hiddenSize == p.hiddenSize && r.value.parallelMode == p.setParallelMode
              && (ProjectionFits(r.value) <==>
                    p.hiddenSize == (if p.setParallelMode then p.numHeads else r.value.headsPerPartition) * p.kvChannels)
  {
    var attentionType :- ParseAttnType(p.attentionType);
    var tp := ResolveTpSize(p.tpSize, p.tpGroupWorldSize);
    var headsPerPartition :- Divide(p.numHeads, tp);
    var core :- D.Init(CoreParams(p));
    assert p.numHeads > 0 && headsPerPartition * tp == p.numHeads;
    assert tp * headsPerPartition * p.kvChannels == p.numHeads * p.kvChannels;
    Success(State(KvCache.LayerKey(p.layerNumber), p.inputLayernorm, attentionType, p.returnLayernormOutput,
                  p.paramsDType, tp, tp > 1 && p.sequenceParallel, headsPerPartition, p.kvChannels, core,
                  p.hiddenSize, p.setParallelMode))
  }

  /** The forward pass returns (output, bias, layernorm output) exactly when this holds, else (output, bias). */
  predicate ReturnsLayernormOutput(s: State) {
    s.inputLayernorm && s.returnLayernormOutput
  }

  /**
   The element type of keys or values as the core sees them: with a session
   they are read back from buffers allocated with the parameter dtype.
   */
  function SeenType(s: State, cached: bool, projected: DType): DType {
    if cached then s.paramsDType else projected
  }

  /**
   The query as the core receives it: (sq, b) from the hidden states, the
   block's heads per partition and head size. Device placement is not
   modelled; every tensor is taken to be on the accelerator.
   */
  function QueryMeta(s: State, qType: DType, queryLen: nat, queryBatch: nat): FA.TensorMeta {
    FA.TensorMeta(qType, true, queryLen, queryBatch, s.headsPerPartition, s.headDim)
  }

  /** Keys or values as the core receives them: the extent of the buffer the cache step hands on. */
  function KvMeta<T>(s: State, dtype: DType, b: KvCache.Buffer<T>): FA.TensorMeta {
    FA.TensorMeta(dtype, true, b.seqLen, b.batch, s.headsPerPartition, s.headDim)
  }

  /**
   The head-splitting views of the projections' outputs pass: the widths
   fit, or every viewed tensor is empty. Self-attention views the fused qkv
   of the hidden states; cross-attention views the fused kv of the encoder
   output, then the query.
   */
  predicate HeadViewsPass<T>(s: State, queryLen: nat, queryBatch: nat, newKey: KvCache.Buffer<T>) {
    || ProjectionFits(s)
    || ((queryLen == 0 || queryBatch == 0) && (s.attentionType == CrossAttn ==> newKey.seqLen == 0 || newKey.batch == 0))
  }

  /** The session after the allocation that precedes the projections: the layer's buffers exist. */
  function Allocated<T>(params: Option<KvCache.InferenceParams<T>>, key: KvCache.LayerKey, fill: T): (r: Option<KvCache.InferenceParams<T>>)
    ensures r.Some? <==> params.Some?
    ensures params.Some? ==> r.value == KvCache.LookupOrAllocate(params.value, key, fill).0
  {
    if params.Some? then Some(KvCache.LookupOrAllocate(params.value, key, fill).0) else None
  }

  /** The core-attention call on the keys and values the cache step hands on. */
  function CoreAttention<T>(s: State, mask: Option<DType>, qType: DType, kType: DType, vType: DType, checkpoint: bool,
                            training: bool, cached: bool, queryLen: nat, queryBatch: nat, kv: KvCache.KvPair<T>): Result<D.Execution>
    requires s.Valid()
  {
    D.Execute(s.core, mask.Some?, QueryMeta(s, qType, queryLen, queryBatch),
              KvMeta(s, SeenType(s, cached, kType), kv.key), KvMeta(s, SeenType(s, cached, vType), kv.value),
              checkpoint, training)
  }

  /**
   What the attention core is called with, what it runs, and the length of
   the tuple the block returns.
   */
  datatype CorePlan<T> = CorePlan(keys: KvCache.Buffer<T>, values: KvCache.Buffer<T>, call: D.AttentionCall,
                                  execution: D.Execution, returned: nat)

  datatype ForwardOutcome<T> = ForwardOutcome(params: Option<KvCache.InferenceParams<T>>, result: Result<CorePlan<T>>)

  /**
   One forward call. `qType`/`kType`/`vType` are the element types the
   projections produce, `queryLen`/`queryBatch` the (sequence, batch) extent
   of the hidden states the query is projected from, and `newKey`/`newValue`
   the keys and values the projections produce. The mask must be boolean.
   The cache guard tests the stored tuple against None, which always passes,
   so a session alone decides whether the cache runs. The layer's buffers are
   allocated before the projections' outputs are split into heads, so a
   failing split leaves the allocation behind. The core attention then
   runs on the keys and values the cache step hands on; with a session they
   carry the buffers' element type, the parameter dtype. An empty query, an
   empty batch or a zero head size fails in whichever variant runs.
   */
  function Forward<T>(
    s: State, mask: Option<DType>, qType: DType, kType: DType, vType: DType, checkpoint: bool, training: bool,
    queryLen: nat, queryBatch: nat,
    params: Option<KvCache.InferenceParams<T>>, fill: T, newKey: KvCache.Buffer<T>, newValue: KvCache.Buffer<T>): (o: ForwardOutcome<T>)
    requires s.Valid() && KvCache.NewBlocks(newKey, newValue)
    requires params.Some? ==> KvCache.WellFormed(params.value)
    ensures mask.Some? && mask.value != Bool ==> o == ForwardOutcome(params, Failure(MaskNotBool))
    ensures (mask.None? || mask == Some(Bool)) && !HeadViewsPass(s, queryLen, queryBatch, newKey) ==>
              o == ForwardOutcome(Allocated(params, s.layerKey, fill), Failure(ViewShapeMismatch))
    ensures !ProjectionFits(s) && queryLen > 0 && queryBatch > 0 ==> o.result.Failure?
    ensures (mask.None? || mask == Some(Bool)) && HeadViewsPass(s, queryLen, queryBatch, newKey) ==>
              var step := KvCache.Step(params, s.layerKey, fill, newKey, newValue);
              && o.params == step.params
              && (o.result.Success? <==>
                    step.result.Success?
                    && CoreAttention(s, mask, qType, kType, vType, checkpoint, training, params.Some?,
                                     queryLen, queryBatch, step.result.value).Success?)
              && (o.result.Success? ==>
                    && o.result.value.keys == step.result.value.key
                    && o.result.value.values == step.result.value.value
                    && Success(o.result.value.execution)
                         == CoreAttention(s, mask, qType, kType, vType, checkpoint, training, params.Some?,
                                          queryLen, queryBatch, step.result.value))
    ensures queryLen == 0 || queryBatch == 0 || s.headDim == 0 ==> o.result.Failure?
    ensures o.result.Success? ==>
              && o.result.value.call.checkpointed == checkpoint
              && (o.result.value.call.variant == D.Flash <==> o.result.value.execution.FlashKernel?)
              && (o.result.value.returned == 3 <==> ReturnsLayernormOutput(s))
              && (o.result.value.returned == 2 <==> !ReturnsLayernormOutput(s))
              && (o.result.value.call.variant == D.Flash <==>
                    && s.core.useFlash && mask.None? && IsHalf(qType)
                    && (if params.Some? then IsHalf(s.paramsDType) else IsHalf(kType) && IsHalf(vType)))
  {
    if mask.Some? && mask.value != Bool then ForwardOutcome(params, Failure(MaskNotBool))
    else if !HeadViewsPass(s, queryLen, queryBatch, newKey) then
      ForwardOutcome(Allocated(params, s.layerKey, fill), Failure(ViewShapeMismatch))
    else
      var step := KvCache.Step(params, s.layerKey, fill, newKey, newValue);
      match step.result
      case Failure(e) => ForwardOutcome(step.params, Failure(e))
      case Success(kv) =>
        var call := D.Dispatch(s.core, mask.Some?, qType, SeenType(s, params.Some?, kType),
                               SeenType(s, params.Some?, vType), checkpoint);
        match CoreAttention(s, mask, qType, kType, vType, checkpoint, training, params.Some?, queryLen, queryBatch, kv)
        case Failure(e) => ForwardOutcome(step.params, Failure(e))
        case Success(ex) =>
          ForwardOutcome(step.params, Success(CorePlan(kv.key, kv.value, call, ex, if ReturnsLayernormOutput(s) then 3 else 2)))
  }

  /**
   Without a session, a call with a boolean (or no) mask, a non-empty query
   and non-empty keys on a block with a positive head size whose projections
   split into its heads succeeds, whichever variant runs.
   */
  lemma NonEmptyCallSucceeds<T>(
    s: State, mask: Option<DType>, qType: DType, kType: DType, vType: DType, checkpoint: bool, training: bool,
    queryLen: nat, queryBatch: nat, fill: T, newKey: KvCache.Buffer<T>, newValue: KvCache.Buffer<T>)
    requires s.Valid() && KvCache.NewBlocks(newKey, newValue)
    requires mask.None? || mask == Some(Bool)
    requires queryLen > 0 && queryBatch > 0 && s.headDim > 0 && newKey.seqLen > 0 && newKey.batch > 0
    requires ProjectionFits(s)
    ensures Forward(s, mask, qType, kType, vType, checkpoint, training, queryLen, queryBatch,
                    None, fill, newKey, newValue).result.Success?
  {
    var kv := KvCache.KvPair(newKey, newValue);
    assert D.UnfusedForward(s.core.unfused, QueryMeta(s, qType, queryLen, queryBatch),
                            KvMeta(s, kType, kv.key), KvMeta(s, vType, kv.value)).Success?;
  }

  /**
   Two blocks built without a layer number store the same key, (None,), so
   in one inference session the second finds — and writes into — the buffers
   the first allocated.
   */
  lemma BlocksWithoutLayerNumberShareCache<T>(
    p1: Params, p2: Params, ip: KvCache.InferenceParams<T>, fill: T,
    k1: KvCache.Buffer<T>, v1: KvCache.Buffer<T>)
    requires Init(p1).Success? && Init(p2).Success?
    requires p1.layerNumber.None? && p2.layerNumber.None?
    requires KvCache.WellFormed(ip) && KvCache.NewBlocks(k1, v1)
    ensures var o := KvCache.Step(Some(ip), Init(p1).value.layerKey, fill, k1, v1);
            KvCache.LookupOrAllocate(o.params.value, Init(p2).value.layerKey, fill).1
              == o.params.value.memory[Init(p1).value.layerKey]
  {
  }

  /**
   With a session and a parameter dtype other than fp16/bf16, the keys read
   back from the cache rule the flash variant out, whatever the projections
   produced.
   */
  lemma CachedFullPrecisionRunsUnfused<T>(
    s: State, mask: Option<DType>, qType: DType, kType: DType, vType: DType, checkpoint: bool, training: bool,
    queryLen: nat, queryBatch: nat, ip: KvCache.InferenceParams<T>, fill: T, newKey: KvCache.Buffer<T>,
    newValue: KvCache.Buffer<T>)
    requires s.Valid() && KvCache.NewBlocks(newKey, newValue) && KvCache.WellFormed(ip)
    requires !IsHalf(s.paramsDType)
    ensures var o := Forward(s, mask, qType, kType, vType, checkpoint, training, queryLen, queryBatch,
                             Some(ip), fill, newKey, newValue);
            o.result.Success? ==> o.result.value.call.variant == D.Unfused
  {
  }

  /**
   The as-written flash call reached through the block: in a self-attention
   call with a session past the first position, the cached keys are longer
   than the query, so whenever the flash variant runs its kernel receives key
   offsets that do not describe the packed keys.
   */
  lemma CachedFlashMisdescribesKeys<T>(
    s: State, mask: Option<DType>, qType: DType, kType: DType, vType: DType, checkpoint: bool, training: bool,
    ip: KvCache.InferenceParams<T>, fill: T, newKey: KvCache.Buffer<T>, newValue: KvCache.Buffer<T>)
    requires s.Valid() && KvCache.NewBlocks(newKey, newValue) && KvCache.WellFormed(ip)
    requires ip.sequenceLenOffset > 0
    ensures var o := Forward(s, mask, qType, kType, vType, checkpoint, training, newKey.seqLen, newKey.batch,
                             Some(ip), fill, newKey, newValue);
            o.result.Success? && o.result.value.execution.FlashKernel? ==>
              !FA.Consistent(o.result.value.execution.kernel)
  {
    var o := Forward(s, mask, qType, kType, vType, checkpoint, training, newKey.seqLen, newKey.batch,
                     Some(ip), fill, newKey, newValue);
    if o.result.Success? && o.result.value.execution.FlashKernel? {
      var step := KvCache.Step(Some(ip), s.layerKey, fill, newKey, newValue);
      var kv := step.result.value;
      var q := QueryMeta(s, qType, newKey.seqLen, newKey.batch);
      var k := KvMeta(s, SeenType(s, true, kType), kv.key);
      var v := KvMeta(s, SeenType(s, true, vType), kv.value);
      assert Success(o.result.value.execution) == D.Execute(s.core, mask.Some?, q, k, v, checkpoint, training);
      assert kv.key.seqLen == ip.sequenceLenOffset + newKey.seqLen && kv.key.batch == newKey.batch;
      D.ExecuteMisdescribesLongerKeys(s.core, mask.Some?, q, k, v, checkpoint, training);
    }
  }
}

=== FILE: names.dfy ===
/**
 The string-valued configuration options of the layer: attention-mask kind,
 layer type and attention type. The constructors receive them as strings and
 assert membership in a fixed list; parsing them here turns that assertion
 into a `Result`.
 */
module Names {
  import opened Common

  datatype MaskType = Causal | Padding

  datatype LayerType = Encoder | Decoder

  datatype AttnType = SelfAttn | CrossAttn

  function MaskTypeName(m: MaskType): string {
    match m
    case Causal => "causal"
    case Padding => "padding"
  }

  function LayerTypeName(l: LayerType): string {
    match l
    case Encoder => "encoder"
    case Decoder => "decoder"
  }

  function AttnTypeName(a: AttnType): string {
    match a
    case SelfAttn => "self"
    case CrossAttn => "cross"
  }

  /** Accepts exactly the names of the mask kinds, and nothing else. */
  function ParseMaskType(s: string): (r: Result<MaskType>)
    ensures forall m :: r == Success(m) <==> MaskTypeName(m) == s
    ensures r.Failure? ==> r.error == UnsupportedMaskType(s)
  {
    if s == "causal" then Success(Causal)
    else if s == "padding" then Success(Padding)
    else Failure(UnsupportedMaskType(s))
  }

  /** Accepts exactly the names of the layer types, and nothing else. */
  function ParseLayerType(s: string): (r: Result<LayerType>)
    ensures forall l :: r == Success(l) <==> LayerTypeName(l) == s
    ensures r.Failure? ==> r.error == UnsupportedLayerType(s)
  {
    if s == "encoder" then Success(Encoder)
    else if s == "decoder" then Success(Decoder)
    else Failure(UnsupportedLayerType(s))
  }

  /** Accepts exactly the names of the attention types, and nothing else. */
  function ParseAttnType(s: string): (r: Result<AttnType>)
    ensures forall a :: r == Success(a) <==> AttnTypeName(a) == s
    ensures r.Failure? ==> r.error == UnsupportedAttentionType(s)
  {
    if s == "self" then Success(SelfAttn)
    else if s == "cross" then Success(CrossAttn)
    else Failure(UnsupportedAttentionType(s))
  }
}

=== FILE: transformer_layer.dfy ===
/**
 One transformer layer: self-attention, an optional cross-attention (decoder
 layers) and an MLP, each followed by bias-dropout-add onto a residual. The
 constructor validates its string options and the weight-gradient fusion flag
 and builds the attention blocks; the forward pass decides which tensor each
 stage adds back as its residual, which bias-dropout-add implementation runs,
 where stochastic depth applies, and whether a final layernorm follows. Only
 the self-attention block sees the inference session.
 */
module TransformerLayer {
  import opened Common
  import opened Names
  import opened Dataflow
  import D = DotProductAttention
  import MHA = MultiHeadAttention
  import KvCache

  /**
   Constructor arguments. `kvChannels` is None or 0 when not given;
   `biasDropoutFusionEnv` is the integer value of NVTE_BIAS_DROPOUT_FUSION
   (default 1); `flashEnv` that of NVTE_FLASH_ATTN; `setParallelMode` makes
   the blocks' projections column-parallel.
   */
  datatype Params = Params(
    hiddenSize: nat,
    numHeads: nat,
    kvChannels: Option<nat>,
    hiddenDropout: real,
    attentionDropout: real,
    layerNumber: Option<int>,
    selfAttnMaskType: string,
    tpGroupWorldSize: Option<nat>,
    tpSize: nat,
    hasRngTracker: bool,
    fuseWgradAccumulation: bool,
    qkLayerScaling: bool,
    softmaxInFp32: bool,
    sequenceParallel: bool,
    paramsDType: DType,
    postLayernormResidual: bool,
    outputLayernorm: bool,
    layerType: string,
    dropPathRate: real,
    fuseQkvParams: bool,
    biasDropoutFusionEnv: int,
    flashEnv: int,
    setParallelMode: bool)

  datatype State = State(
    layerType: LayerType,
    outputLayernorm: bool,
    postLayernormResidual: bool,
    kvChannels: nat,
    sequenceParallel: bool,
    selfAttn: MHA.State,
    interAttn: Option<MHA.State>,
    mlpReturnsLayernormOutput: bool,
    hiddenDropout: real,
    dropPath: Option<real>,
    biasDropoutFusion: bool)
  {
    predicate Valid() {
      && selfAttn.Valid() && selfAttn.headDim == kvChannels
      && (interAttn.Some? <==> layerType == Decoder)
      && (interAttn.Some? ==> interAttn.value.Valid() && interAttn.value.headDim == kvChannels)
      && (dropPath.Some? ==> dropPath.value > 0.0)
    }
  }

  /** The per-head size: the given one, or the hidden size split evenly (rounded down) across the heads. */
  function KvChannels(p: Params): (r: Result<nat>)
    ensures p.kvChannels.Some? && p.kvChannels.value != 0 ==> r == Success(p.kvChannels.value)
    ensures (p.kvChannels.None? || p.kvChannels.value == 0) && p.numHeads == 0 ==> r == Failure(ZeroDivision)
    ensures (p.kvChannels.None? || p.kvChannels.value == 0) && p.numHeads > 0 ==>
              r.Success? && r.value * p.numHeads <= p.hiddenSize < (r.value + 1) * p.numHeads
  {
    if p.kvChannels.Some? && p.kvChannels.value != 0 then Success(p.kvChannels.value)
    else if p.numHeads == 0 then Failure(ZeroDivision)
    else Success(p.hiddenSize / p.numHeads)
  }

  /** The arguments shared by both attention blocks, with the mask kind and the layout flags set per block. */
  function BlockParams(p: Params, kv: nat, maskType: string, inputLayernorm: bool, attentionType: string): MHA.Params {
    MHA.Params(p.hiddenSize, p.numHeads, kv, p.attentionDropout, p.layerNumber, p.qkLayerScaling, p.softmaxInFp32,
               maskType, p.tpGroupWorldSize, ResolveTpSize(p.tpSize, p.tpGroupWorldSize), p.hasRngTracker,
               ResolveTpSize(p.tpSize, p.tpGroupWorldSize) > 1 && p.sequenceParallel, p.paramsDType,
               p.postLayernormResidual, inputLayernorm, attentionType, p.flashEnv, p.setParallelMode)
  }

  /** The self-attention block: layernorm at its input unless the layer normalises its output. */
  function SelfParams(p: Params, kv: nat): MHA.Params {
    BlockParams(p, kv, p.selfAttnMaskType, !p.outputLayernorm, "self")
  }

  /** The cross-attention block: always a padding mask and an input layernorm. */
  function CrossParams(p: Params, kv: nat): MHA.Params {
    BlockParams(p, kv, "padding", true, "cross")
  }

  /** Whether the checks that precede the sub-modules pass, in the order the constructor makes them. */
  predicate ArgumentsValid(p: Params) {
    && ParseMaskType(p.selfAttnMaskType).Success?
    && ParseLayerType(p.layerType).Success?
    && (p.fuseQkvParams || !p.fuseWgradAccumulation)
  }

  /**
   The constructor: mask kind, then layer type, then the rule that fusing
   weight-gradient accumulation needs fused QKV parameters; then the blocks.
   The cross-attention block exists only in decoder layers, drop-path only
   for a positive rate, and bias-dropout fusion follows the environment.
   */
  function Init(p: Params): (r: Result<State>)
    ensures ParseMaskType(p.selfAttnMaskType).Failure? ==> r == Failure(UnsupportedMaskType(p.selfAttnMaskType))
    ensures ParseMaskType(p.selfAttnMaskType).Success? && ParseLayerType(p.layerType).Failure? ==>
              r == Failure(UnsupportedLayerType(p.layerType))
    ensures (ParseMaskType(p.selfAttnMaskType).Success? && ParseLayerType(p.layerType).Success?
             && !p.fuseQkvParams && p.fuseWgradAccumulation) ==> r == Failure(WgradFusionNeedsFusedQkv)
    ensures r.Success? <==>
              && ArgumentsValid(p)
              && KvChannels(p).Success?
              && MHA.Init(SelfParams(p, KvChannels(p).value)).Success?
              && (p.layerType == "decoder" ==> MHA.Init(CrossParams(p, KvChannels(p).value)).Success?)
    ensures r.Success? ==>
              && r.value.Valid()
              && LayerTypeName(r.value.layerType) == p.layerType
              && r.value.kvChannels == KvChannels(p).value
              && r.value.selfAttn == MHA.Init(SelfParams(p, r.value.kvChannels)).value
              && (r.value.interAttn.Some? ==> r.value.interAttn.value == MHA.Init(CrossParams(p, r.value.kvChannels)).value)
              && r.value.mlpReturnsLayernormOutput == p.postLayernormResidual
              && r.value.dropPath == (if p.dropPathRate > 0.0 then Some(p.dropPathRate) else None)
              && r.value.biasDropoutFusion == (p.biasDropoutFusionEnv != 0)
  {
    var _ :- ParseMaskType(p.selfAttnMaskType);
    var layerType :- ParseLayerType(p.layerType);
    if !p.fuseQkvParams && p.fuseWgradAccumulation then Failure(WgradFusionNeedsFusedQkv)
    else
      var kv :- KvChannels(p);
      var tp := ResolveTpSize(p.tpSize, p.tpGroupWorldSize);
      var selfAttn :- MHA.Init(SelfParams(p, kv));
      var interAttn :- InterInit(p, kv, layerType);
      Success(State(layerType, p.outputLayernorm, p.postLayernormResidual, kv, tp > 1 && p.sequenceParallel,
                    selfAttn, interAttn, p.postLayernormResidual, p.hiddenDropout,
                    if p.dropPathRate > 0.0 then Some(p.dropPathRate) else None,
                    p.biasDropoutFusionEnv != 0))
  }

  /** The cross-attention block of a decoder layer; encoder layers have none. */
  function InterInit(p: Params, kv: nat, layerType: LayerType): (r: Result<Option<MHA.State>>)
    ensures r.Success? <==> (layerType == Decoder ==> MHA.Init(CrossParams(p, kv)).Success?)
    ensures r.Success? ==> (r.value.Some? <==> layerType == Decoder)
    ensures r.Success? && r.value.Some? ==> Success(r.value.value) == MHA.Init(CrossParams(p, kv))
  {
    if layerType == Decoder then
      match MHA.Init(CrossParams(p, kv))
      case Success(c) => Success(Some(c))
      case Failure(e) => Failure(e)
    else Success(None)
  }

  /** The bias-dropout-add implementation: fused (train or inference) or the unfused reference. */
  function BdaFor(l: State, training: bool): (k: BdaKind)
    ensures k.Unfused? <==> !l.biasDropoutFusion
    ensures k.Unfused? ==> k.training == training
    ensures k == FusedTrain <==> l.biasDropoutFusion && training
  {
    if l.biasDropoutFusion then (if training then FusedTrain else FusedInference) else Unfused(training)
  }

  /**
   How the self-attention and MLP stages add a block's output back onto the
   residual: bias-dropout-add when no drop-path is configured, otherwise
   dropout of output plus bias, then drop-path, added to the residual.
   */
  function Merge(l: State, training: bool, out: Term, bias: Term, residual: Term): (t: Term)
    ensures t.BiasDropoutAdd? <==> l.dropPath.None?
    ensures t.BiasDropoutAdd? ==> t.residual == residual && t.kind == BdaFor(l, training) && t.prob == l.hiddenDropout
    ensures t.Sum? ==> t.left == residual
    ensures ContainsStochasticDepth(t) <==>
              || (training && l.dropPath.Some? && l.dropPath.value != 0.0)
              || ContainsStochasticDepth(out) || ContainsStochasticDepth(bias) || ContainsStochasticDepth(residual)
  {
    match l.dropPath
    case None => BiasDropoutAdd(BdaFor(l, training), out, bias, residual, l.hiddenDropout)
    case Some(rate) =>
      var dropped := Dropout(Sum(out, bias), l.hiddenDropout, training);
      assert ContainsStochasticDepth(dropped) <==> ContainsStochasticDepth(out) || ContainsStochasticDepth(bias);
      Sum(residual, DropPathForward(rate, training, dropped))
  }

  /** Tuple unpacking: the number of names must equal the number of returned values. */
  function Unpack(expected: nat, got: nat): (r: Result<()>)
    ensures r.Success? <==> expected == got
    ensures r.Failure? ==> r.error == UnpackArity(expected, got)
  {
    if expected == got then Success(()) else Failure(UnpackArity(expected, got))
  }

  /** The length of a block's returned tuple. */
  function Arity(withLayernormOutput: bool): nat {
    if withLayernormOutput then 3 else 2
  }

  /** One stage: the tensor it starts from, the residual it adds back and what it produces. */
  datatype StageRun = StageRun(input: Term, residual: Term, merged: Term)

  /**
   The self-attention stage. Its residual is the block's layernorm output
   when residuals are taken after the layernorm and that layernorm is at the
   block's input; otherwise it is the stage's input.
   */
  function SelfStage(l: State, training: bool, x: Term): (r: Result<StageRun>)
    ensures r.Success? <==> (l.postLayernormResidual && !l.outputLayernorm) == MHA.ReturnsLayernormOutput(l.selfAttn)
    ensures r.Success? ==> r.value.input == x
    ensures r.Success? && l.postLayernormResidual && !l.outputLayernorm ==>
              r.value.residual == BlockLayernormOut(SelfAttention, x)
    ensures r.Success? && !(l.postLayernormResidual && !l.outputLayernorm) ==> r.value.residual == x
    ensures r.Success? ==>
              (r.value.merged.BiasDropoutAdd? <==> l.dropPath.None?)
              && (ContainsStochasticDepth(r.value.merged) <==>
                    (training && l.dropPath.Some? && l.dropPath.value != 0.0) || ContainsStochasticDepth(x))
  {
    var fromLayernorm := l.postLayernormResidual && !l.outputLayernorm;
    var _ :- Unpack(Arity(fromLayernorm), Arity(MHA.ReturnsLayernormOutput(l.selfAttn)));
    var residual := if fromLayernorm then BlockLayernormOut(SelfAttention, x) else x;
    Success(StageRun(x, residual, Merge(l, training, BlockOut(SelfAttention, x), BlockBias(SelfAttention, x), residual)))
  }

  /**
   The cross-attention stage: its residual is the block's layernorm output
   when residuals are taken after the layernorm, and it always uses
   bias-dropout-add — never drop-path, even when one is configured.
   */
  function CrossStage(l: State, training: bool, x: Term): (r: Result<StageRun>)
    requires l.interAttn.Some?
    ensures r.Success? <==> l.postLayernormResidual == MHA.ReturnsLayernormOutput(l.interAttn.value)
    ensures r.Success? ==> r.value.input == x
    ensures r.Success? ==> r.value.residual == if l.postLayernormResidual then BlockLayernormOut(CrossAttention, x) else x
    ensures r.Success? ==> r.value.merged.BiasDropoutAdd? && r.value.merged.kind == BdaFor(l, training)
                           && r.value.merged.residual == r.value.residual
    ensures r.Success? ==> (ContainsStochasticDepth(r.value.merged) <==> ContainsStochasticDepth(x))
  {
    var _ :- Unpack(Arity(l.postLayernormResidual), Arity(MHA.ReturnsLayernormOutput(l.interAttn.value)));
    var residual := if l.postLayernormResidual then BlockLayernormOut(CrossAttention, x) else x;
    Success(StageRun(x, residual, BiasDropoutAdd(BdaFor(l, training), BlockOut(CrossAttention, x),
                                                 BlockBias(CrossAttention, x), residual, l.hiddenDropout)))
  }

  /** The MLP stage: residual routing as for cross-attention, merging as for self-attention. */
  function MlpStage(l: State, training: bool, x: Term): (r: Result<StageRun>)
    ensures r.Success? <==> l.postLayernormResidual == l.mlpReturnsLayernormOutput
    ensures r.Success? ==> r.value.input == x
    ensures r.Success? ==> r.value.residual == if l.postLayernormResidual then BlockLayernormOut(Mlp, x) else x
    ensures r.Success? ==>
              (r.value.merged.BiasDropoutAdd? <==> l.dropPath.None?)
              && (ContainsStochasticDepth(r.value.merged) <==>
                    (training && l.dropPath.Some? && l.dropPath.value != 0.0) || ContainsStochasticDepth(x))
  {
    var _ :- Unpack(Arity(l.postLayernormResidual), Arity(l.mlpReturnsLayernormOutput));
    var residual := if l.postLayernormResidual then BlockLayernormOut(Mlp, x) else x;
    Success(StageRun(x, residual, Merge(l, training, BlockOut(Mlp, x), BlockBias(Mlp, x), residual)))
  }

  /**
   What a block's projections produce for one call: element types, the
   (sequence, batch) extent of the hidden states the query comes from, and
   the new keys and values.
   */
  datatype Projected<T> = Projected(qType: DType, kType: DType, vType: DType, queryLen: nat, queryBatch: nat,
                                    newKey: KvCache.Buffer<T>, newValue: KvCache.Buffer<T>)
  {
    predicate Valid() {
      KvCache.NewBlocks(newKey, newValue)
    }
  }

  datatype LayerRun = LayerRun(
    selfCall: D.AttentionCall,
    crossCall: Option<D.AttentionCall>,
    selfStage: StageRun,
    crossStage: Option<StageRun>,
    mlpStage: StageRun,
    output: Term)

  datatype LayerOutcome<T> = LayerOutcome(params: Option<KvCache.InferenceParams<T>>, result: Result<LayerRun>)

  /** The self-attention block's call: with the layer's mask and the inference session. */
  function SelfBlock<T>(l: State, mask: Option<DType>, checkpoint: bool, training: bool,
                        params: Option<KvCache.InferenceParams<T>>, fill: T, selfIn: Projected<T>): MHA.ForwardOutcome<T>
    requires l.Valid() && selfIn.Valid()
    requires params.Some? ==> KvCache.WellFormed(params.value)
  {
    MHA.Forward(l.selfAttn, mask, selfIn.qType, selfIn.kType, selfIn.vType, checkpoint, training,
                selfIn.queryLen, selfIn.queryBatch, params, fill, selfIn.newKey, selfIn.newValue)
  }

  /** The cross-attention block's call: with the encoder-decoder mask and no session. */
  function CrossBlock<T>(l: State, encDecMask: Option<DType>, checkpoint: bool, training: bool, fill: T,
                         crossIn: Projected<T>): MHA.ForwardOutcome<T>
    requires l.Valid() && l.interAttn.Some? && crossIn.Valid()
  {
    MHA.Forward(l.interAttn.value, encDecMask, crossIn.qType, crossIn.kType, crossIn.vType, checkpoint, training,
                crossIn.queryLen, crossIn.queryBatch, None, fill, crossIn.newKey, crossIn.newValue)
  }

  /** The optional cross-attention part: its call, without any session, and its stage. */
  function CrossPart<T>(l: State, training: bool, encDecMask: Option<DType>, checkpoint: bool, fill: T,
                        crossIn: Projected<T>, x: Term): (r: Result<(Option<D.AttentionCall>, Option<StageRun>)>)
    requires l.Valid() && crossIn.Valid()
    ensures r.Success? ==> (r.value.0.Some? <==> l.layerType == Decoder) && (r.value.1.Some? <==> l.layerType == Decoder)
    ensures r.Success? && r.value.1.Some? ==> CrossStage(l, training, x) == Success(r.value.1.value)
    ensures r.Success? && r.value.0.Some? ==> r.value.0.value.checkpointed == checkpoint
    ensures l.layerType == Decoder && encDecMask.Some? && encDecMask.value != Bool ==> r == Failure(MaskNotBool)
    ensures l.layerType == Decoder && (crossIn.queryLen == 0 || crossIn.queryBatch == 0 || l.kvChannels == 0) ==> r.Failure?
  {
    if l.layerType != Decoder then Success((None, None))
    else
      var c := CrossBlock(l, encDecMask, checkpoint, training, fill, crossIn);
      match c.result
      case Failure(e) => Failure(e)
      case Success(plan) =>
        var stage :- CrossStage(l, training, x);
        Success((Some(plan.call), Some(stage)))
  }

  /**
   The forward pass after the self-attention block: its stage, the optional
   cross-attention, the MLP stage and the optional final layernorm.
   */
  function Rest<T>(l: State, training: bool, encDecMask: Option<DType>, checkpoint: bool, fill: T,
                   crossIn: Projected<T>, selfCall: D.AttentionCall): (r: Result<LayerRun>)
    requires l.Valid() && crossIn.Valid()
    ensures r.Success? ==>
              && r.value.selfCall == selfCall
              && SelfStage(l, training, Hidden) == Success(r.value.selfStage)
              && (r.value.crossStage.Some? <==> l.layerType == Decoder)
              && (r.value.crossCall.Some? <==> l.layerType == Decoder)
              && (r.value.crossStage.Some? ==> CrossStage(l, training, r.value.selfStage.merged) == Success(r.value.crossStage.value))
              && r.value.mlpStage.input == (if r.value.crossStage.Some? then r.value.crossStage.value.merged
                                            else r.value.selfStage.merged)
              && MlpStage(l, training, r.value.mlpStage.input) == Success(r.value.mlpStage)
              && r.value.output == (if l.outputLayernorm then FinalLayernorm(r.value.mlpStage.merged)
                                    else r.value.mlpStage.merged)
  {
    var s :- SelfStage(l, training, Hidden);
    var cross :- CrossPart(l, training, encDecMask, checkpoint, fill, crossIn, s.merged);
    var mlpInput := if cross.1.Some? then cross.1.value.merged else s.merged;
    var m :- MlpStage(l, training, mlpInput);
    Success(LayerRun(selfCall, cross.0, s, cross.1, m, if l.outputLayernorm then FinalLayernorm(m.merged) else m.merged))
  }

  /**
   The layer's forward pass. The mask must be boolean; the self-attention
   block runs with the inference session, and nothing after it touches the
   session, so the session after the layer is the one the self-attention
   cache step leaves — or, when the block's projections do not split into
   its heads, the one its allocation leaves. An empty query, an empty batch
   or a zero head size fails in the self-attention block's core call, and a
   non-empty query fails when a block's projections do not split into heads.
   */
  function Forward<T>(l: State, training: bool, mask: Option<DType>, encDecMask: Option<DType>, checkpoint: bool,
                      params: Option<KvCache.InferenceParams<T>>, fill: T,
                      selfIn: Projected<T>, crossIn: Projected<T>): (o: LayerOutcome<T>)
    requires l.Valid() && selfIn.Valid() && crossIn.Valid()
    requires params.Some? ==> KvCache.WellFormed(params.value)
    ensures mask.Some? && mask.value != Bool ==> o == LayerOutcome(params, Failure(MaskNotBool))
    ensures (mask.None? || mask == Some(Bool)) && MHA.HeadViewsPass(l.selfAttn, selfIn.queryLen, selfIn.queryBatch, selfIn.newKey) ==>
              o.params == KvCache.Step(params, l.selfAttn.layerKey, fill, selfIn.newKey, selfIn.newValue).params
    ensures (mask.None? || mask == Some(Bool)) && !MHA.HeadViewsPass(l.selfAttn, selfIn.queryLen, selfIn.queryBatch, selfIn.newKey) ==>
              o == LayerOutcome(MHA.Allocated(params, l.selfAttn.layerKey, fill), Failure(ViewShapeMismatch))
    ensures selfIn.queryLen == 0 || selfIn.queryBatch == 0 || l.kvChannels == 0 ==> o.result.Failure?
    ensures !MHA.ProjectionFits(l.selfAttn) && selfIn.queryLen > 0 && selfIn.queryBatch > 0 ==> o.result.Failure?
    ensures (l.interAttn.Some? && !MHA.ProjectionFits(l.interAttn.value) && crossIn.queryLen > 0 && crossIn.queryBatch > 0) ==>
              o.result.Failure?
    ensures o.result.Success? ==>
              && KvCache.Step(params, l.selfAttn.layerKey, fill, selfIn.newKey, selfIn.newValue).result.Success?
              && SelfBlock(l, mask, checkpoint, training, params, fill, selfIn).result.Success?
              && o.result.value.selfCall == SelfBlock(l, mask, checkpoint, training, params, fill, selfIn).result.value.call
              && o.result.value.selfCall.checkpointed == checkpoint
              && o.result == Rest(l, training, encDecMask, checkpoint, fill, crossIn, o.result.value.selfCall)
  {
    if mask.Some? && mask.value != Bool then LayerOutcome(params, Failure(MaskNotBool))
    else
      var a := SelfBlock(l, mask, checkpoint, training, params, fill, selfIn);
      match a.result
      case Failure(e) => LayerOutcome(a.params, Failure(e))
      case Success(plan) => LayerOutcome(a.params, Rest(l, training, encDecMask, checkpoint, fill, crossIn, plan.call))
  }

  /** Each block returns as many values as the layer unpacks from it. */
  predicate AritiesAgree(l: State) {
    && MHA.ReturnsLayernormOutput(l.selfAttn) == (l.postLayernormResidual && !l.outputLayernorm)
    && (l.interAttn.Some? ==> MHA.ReturnsLayernormOutput(l.interAttn.value) == l.postLayernormResidual)
    && l.mlpReturnsLayernormOutput == l.postLayernormResidual
  }

  /**
   The constructor wires the blocks' layernorm flags so that the arities
   agree: the self-attention block returns its layernorm output exactly when
   it has an input layernorm and residuals are taken after it.
   */
  lemma ConstructedLayersAgreeOnArity(p: Params)
    requires Init(p).Success?
    ensures AritiesAgree(Init(p).value)
  {
    var l := Init(p).value;
    var kv := l.kvChannels;
    assert l.selfAttn.inputLayernorm == !p.outputLayernorm && l.selfAttn.returnLayernormOutput == p.postLayernormResidual;
    if l.interAttn.Some? {
      assert l.interAttn.value.inputLayernorm && l.interAttn.value.returnLayernormOutput == p.postLayernormResidual;
    }
  }

  /**
   With agreeing arities and a boolean (or absent) cross mask, everything
   after self-attention succeeds exactly when the cross-attention block's
   call does (encoder layers have none): the stages never fail on unpacking.
   */
  lemma RestFailsOnlyInCrossAttention<T>(l: State, training: bool, encDecMask: Option<DType>, checkpoint: bool, fill: T,
                                         crossIn: Projected<T>, selfCall: D.AttentionCall)
    requires l.Valid() && AritiesAgree(l) && crossIn.Valid()
    requires encDecMask.None? || encDecMask == Some(Bool)
    ensures Rest(l, training, encDecMask, checkpoint, fill, crossIn, selfCall).Success? <==>
              (l.layerType == Decoder ==> CrossBlock(l, encDecMask, checkpoint, training, fill, crossIn).result.Success?)
  {
    var s := SelfStage(l, training, Hidden);
    assert s.Success?;
    var cross := CrossPart(l, training, encDecMask, checkpoint, fill, crossIn, s.value.merged);
    if l.layerType == Decoder {
      assert CrossStage(l, training, s.value.merged).Success?;
      if CrossBlock(l, encDecMask, checkpoint, training, fill, crossIn).result.Success? {
        assert cross.Success?;
      }
    }
    if cross.Success? {
      var mlpInput := if cross.value.1.Some? then cross.value.1.value.merged else s.value.merged;
      assert MlpStage(l, training, mlpInput).Success?;
    }
  }

  /**
   When the arities agree, a forward pass with boolean (or absent) masks
   fails exactly when one of its attention blocks does — in the
   self-attention cache step or core call, or in the cross-attention core
   call — and never on unpacking.
   */
  lemma ForwardFailsOnlyInAttention<T>(
    l: State, training: bool, mask: Option<DType>, encDecMask: Option<DType>, checkpoint: bool,
    params: Option<KvCache.InferenceParams<T>>, fill: T, selfIn: Projected<T>, crossIn: Projected<T>)
    requires l.Valid() && AritiesAgree(l) && selfIn.Valid() && crossIn.Valid()
    requires params.Some? ==> KvCache.WellFormed(params.value)
    requires mask.None? || mask == Some(Bool)
    requires encDecMask.None? || encDecMask == Some(Bool)
    ensures Forward(l, training, mask, encDecMask, checkpoint, params, fill, selfIn, crossIn).result.Success? <==>
              && SelfBlock(l, mask, checkpoint, training, params, fill, selfIn).result.Success?
              && (l.layerType == Decoder ==> CrossBlock(l, encDecMask, checkpoint, training, fill, crossIn).result.Success?)
  {
    var a := SelfBlock(l, mask, checkpoint, training, params, fill, selfIn);
    if a.result.Success? {
      RestFailsOnlyInCrossAttention(l, training, encDecMask, checkpoint, fill, crossIn, a.result.value.call);
    }
  }

  /**
   Without a session, a layer with agreeing arities, a positive head size and
   blocks whose projections split into their heads, called with boolean (or
   absent) masks on non-empty queries and keys, succeeds.
   */
  lemma NonEmptyCallSucceeds<T>(
    l: State, training: bool, mask: Option<DType>, encDecMask: Option<DType>, checkpoint: bool, fill: T,
    selfIn: Projected<T>, crossIn: Projected<T>)
    requires l.Valid() && AritiesAgree(l) && selfIn.Valid() && crossIn.Valid()
    requires mask.None? || mask == Some(Bool)
    requires encDecMask.None? || encDecMask == Some(Bool)
    requires l.kvChannels > 0
    requires MHA.ProjectionFits(l.selfAttn) && (l.interAttn.Some? ==> MHA.ProjectionFits(l.interAttn.value))
    requires selfIn.queryLen > 0 && selfIn.queryBatch > 0 && selfIn.newKey.seqLen > 0 && selfIn.newKey.batch > 0
    requires crossIn.queryLen > 0 && crossIn.queryBatch > 0 && crossIn.newKey.seqLen > 0 && crossIn.newKey.batch > 0
    ensures Forward(l, training, mask, encDecMask, checkpoint, None, fill, selfIn, crossIn).result.Success?
  {
    MHA.NonEmptyCallSucceeds(l.selfAttn, mask, selfIn.qType, selfIn.kType, selfIn.vType, checkpoint, training,
                             selfIn.queryLen, selfIn.queryBatch, fill, selfIn.newKey, selfIn.newValue);
    if l.layerType == Decoder {
      MHA.NonEmptyCallSucceeds(l.interAttn.value, encDecMask, crossIn.qType, crossIn.kType, crossIn.vType, checkpoint,
                               training, crossIn.queryLen, crossIn.queryBatch, fill, crossIn.newKey, crossIn.newValue);
    }
    ForwardFailsOnlyInAttention(l, training, mask, encDecMask, checkpoint, None, fill, selfIn, crossIn);
  }

  /**
   A constructed layer, called with boolean (or absent) masks, fails exactly
   when one of its attention blocks does.
   */
  lemma ConstructedLayerFailsOnlyInAttention<T>(
    p: Params, training: bool, mask: Option<DType>, encDecMask: Option<DType>, checkpoint: bool,
    params: Option<KvCache.InferenceParams<T>>, fill: T, selfIn: Projected<T>, crossIn: Projected<T>)
    requires Init(p).Success? && selfIn.Valid() && crossIn.Valid()
    requires params.Some? ==> KvCache.WellFormed(params.value)
    requires mask.None? || mask == Some(Bool)
    requires encDecMask.None? || encDecMask == Some(Bool)
    ensures var l := Init(p).value;
            Forward(l, training, mask, encDecMask, checkpoint, params, fill, selfIn, crossIn).result.Success? <==>
              && SelfBlock(l, mask, checkpoint, training, params, fill, selfIn).result.Success?
              && (l.layerType == Decoder ==> CrossBlock(l, encDecMask, checkpoint, training, fill, crossIn).result.Success?)
  {
    ConstructedLayersAgreeOnArity(p);
    ForwardFailsOnlyInAttention(Init(p).value, training, mask, encDecMask, checkpoint, params, fill, selfIn, crossIn);
  }

  /**
   Stochastic depth enters the layer's output exactly when the layer is in
   training mode and has a drop-path module — which the constructor creates
   exactly for a positive rate.
   */
  lemma StochasticDepthOnlyWhenTrainingWithDropPath<T>(
    l: State, training: bool, mask: Option<DType>, encDecMask: Option<DType>, checkpoint: bool,
    params: Option<KvCache.InferenceParams<T>>, fill: T, selfIn: Projected<T>, crossIn: Projected<T>)
    requires l.Valid() && selfIn.Valid() && crossIn.Valid()
    requires params.Some? ==> KvCache.WellFormed(params.value)
    requires Forward(l, training, mask, encDecMask, checkpoint, params, fill, selfIn, crossIn).result.Success?
    ensures var o := Forward(l, training, mask, encDecMask, checkpoint, params, fill, selfIn, crossIn);
            ContainsStochasticDepth(o.result.value.output) <==> training && l.dropPath.Some?
  {
    var run := Forward(l, training, mask, encDecMask, checkpoint, params, fill, selfIn, crossIn).result.value;
    var active := training && l.dropPath.Some?;
    assert ContainsStochasticDepth(run.selfStage.merged) <==> active;
    assert ContainsStochasticDepth(run.mlpStage.input) <==> active;
    assert ContainsStochasticDepth(run.mlpStage.merged) <==> active;
  }

  /**
   The cross-attention block runs without the inference session: whatever
   session the layer is given, its dispatch decision is the same.
   */
  lemma CrossAttentionIgnoresSession<T>(
    l: State, training: bool, mask: Option<DType>, encDecMask: Option<DType>, checkpoint: bool,
    params1: Option<KvCache.InferenceParams<T>>, params2: Option<KvCache.InferenceParams<T>>, fill: T,
    selfIn: Projected<T>, crossIn: Projected<T>)
    requires l.Valid() && selfIn.Valid() && crossIn.Valid()
    requires params1.Some? ==> KvCache.WellFormed(params1.value)
    requires params2.Some? ==> KvCache.WellFormed(params2.value)
    ensures var o1 := Forward(l, training, mask, encDecMask, checkpoint, params1, fill, selfIn, crossIn);
            var o2 := Forward(l, training, mask, encDecMask, checkpoint, params2, fill, selfIn, crossIn);
            o1.result.Success? && o2.result.Success? ==>
              o1.result.value.crossCall == o2.result.value.crossCall && o1.result.value.output == o2.result.value.output
  {
  }
}
